=== FILE: README.md ===
# blizbase: roster reconciliation and self-update, modelled in Dafny

blizbase keeps a PocketBase collection, "characters", in step with a World of
Warcraft guild roster, and it can update its own container image. This project
models two decision procedures of that program as pure Dafny functions and proves
properties about them. HTTP, Docker and the database are replaced by input values.

**Roster reconciliation** (`blizzClient` in main.go, with `normalizeValue` and
`setRecordFields`). One pass reads every stored record and then, for each roster
member:

- it fetches the profile, retrying while the response has no header, at most three
  calls in all;
- it skips the member if the final call has an error or no header;
- it marks the id as seen;
- it compares the normalised text of each candidate field with the stored value;
- it saves an update or a create only when something differs.

After the loop it deletes every listed record whose id was not seen.

The model's pieces:

- The store is a `map<string, map<string, Value>>`.
- Every profile call is a scripted `Attempt(profile, header, failed)`.
- Store failures are inputs: the positions of rejected saves and the ids of rejected
  deletes.
- `Reconciler.Reconcile` returns a per-member trace (the model's record of each
  entry's calls, sleeps and verdict, not the program's log output), the saves issued,
  the deletes issued and the resulting store.
- An integral float is held as its exact value and a fractional one as its shortest
  decimal text (`Values.Float`), so the printed text is concrete and provably
  injective.

**Self-update controller** (`watchForUpdates` in selfupdate.go) does these steps in
order:

1. Compare the registry digest of `ghcr.io/jrsmile/blizbase:latest` with the local
   image's digest.
2. If they differ, pull the image.
3. Find the container running the image and restart it.

Each sub-call's reply is an input value. `SelfUpdate.WatchForUpdates` returns the
calls issued and whether the pass returned (`Done`) or exited with status 1 (`Exit1`).

Files: `wrappers.dfy` (Option/Result), `decimal.dfy` (integer text), `values.dfy`
(`normalizeValue`), `records.dfy` (field maps, diff, `setRecordFields`), `profiles.dfy`
(profile and candidate fields), `fetch.dfy` (retry loop), `reconcile.dfy` (the pass),
`reconcile_proofs.dfy` (convergence and idempotence), `pass_facts.dfy` (per-pass facts),
`registry.dfy` (remote and local digests), `engine.dfy` (pull stream, container list,
restart), `selfupdate.dfy` (the controller).

Three behaviours of the code that the model keeps as written:

- A member skipped after failed fetches is never added to `rosterKeys`, so its stored
  record is deleted by the sweep (main.go:214-224, 290-298).
- The fetch is retried only on a nil header, whatever the error is (main.go:209). An
  answer that has a header and an error ends the retries, and the member is skipped.
- A failed roster fetch is only logged (main.go:182-185). The pass carries on with
  whatever roster it has, so here the roster is an input.

## Model

| member | source | states |
|---|---|---|
| Values.Normalize | main.go:141-156 | A float's text has a decimal point exactly when the float has a fractional part, and an int's text never has one |
| Values.FloatTextInjective | main.go:143-152 | Two model floats print the same text exactly when they are the same model `Float`: the same integer for integral values, the same printed text for fractional ones |
| Values.NormalizeComparesNumbersByValue | main.go:141-156 | An int, a float64 and a float32 normalise alike exactly when they carry the same model `Float`: the same integer, or for fractions the same printed text |
| Values.NormalizeExamples | main.go:141-156 | 5.0, int 5 and string "5" all normalise to "5"; 5.5 to "5.5"; 5.0 and 6.0 differ |
| Decimal.NatText | main.go:145 | The decimal text of a natural number is all digits, at least one, with at least two from 10 up and a leading zero only for 0 |
| Decimal.IntText | main.go:223 | The decimal text of an integer starts with '-' exactly when it is negative and never contains a decimal point |
| Decimal.IntTextInjective | main.go:145 | Decimal integer text is injective: equal text exactly when the integers are equal |
| Profiles.RecordId | main.go:223 | A record id is never empty, so a fetched member never maps to an id-less record |
| Profiles.RecordIdInjective | main.go:223-224 | Two profiles get the same record id exactly when their numeric ids are equal |
| Profiles.CandidateFields | main.go:225-254 | The candidate map of `fieldValues`: one entry per character field name, taken from the matching profile attribute, numbers as `Int` and text as `Str`; `CandidateFieldsKnown` states its key set |
| Profiles.CandidateFieldsKnown | main.go:225-254 | The candidate map has exactly the 28 character field names, all of which the collection is created with |
| Records.Get | main.go:259 | `record.Get(key)`: the stored value of a set field, and nil for a field the record does not hold |
| Records.DiffFields | main.go:255-264 | The comparison loop, visiting fields in any order and stopping at the first difference, reports "same" exactly when every candidate field's normal form equals the stored one (unset fields read as nil) |
| Records.SetRecordFields | main.go:158-164 | Afterwards the record holds its old names plus the candidate names the schema knows; those take the candidate value, and every other field is unchanged |
| Records.SetRecordFieldsSettles | main.go:158-164 | When the schema knows every candidate name, the written record compares as unchanged against that candidate |
| Records.SetRecordFieldsIdempotent | main.go:158-164 | Writing the same values a second time changes nothing |
| Records.UnknownFieldKeepsDiffering | main.go:258-269 | A differing candidate field that the schema lacks is never written, so the record keeps comparing as changed |
| Records.SameNormalizedRespectsEquivalence | main.go:258-260 | Records with equal normal forms field by field compare alike against any candidate |
| Fetch.CallsFrom | main.go:209-213 | The retry count stays within the budget, no earlier answer had a header, and fewer than three calls means the last answer had one |
| Fetch.Backoffs | main.go:211 | The sleep before retry k is k × 100 ms |
| Fetch.FetchProfile | main.go:207-213 | 1 to 3 calls are made, all but the last lack a header, stopping early only at a header; the kept answer is the last call's; one sleep of k × 100 ms precedes retry k |
| Fetch.RetryIgnoresErrors | main.go:209 | The number of calls depends only on which answers carried a header, not on errors |
| Fetch.HeaderlessMemberSkipped | main.go:207-222 | Three header-less answers give exactly three calls, sleeps of 100 and 200 ms, and a skipped member |
| Fetch.ErrorWithHeaderIsNotRetried | main.go:209-218 | An answer with both a header and an error stops after one call and the member is skipped |
| Reconciler.Existing | main.go:197-202 | The in-memory map holds every listed record except those with an empty id, unchanged |
| Reconciler.VisitMember | main.go:214-286 | One member: in-memory ids never change; the seen set grows by the member's id exactly when the fetch is usable, before any save; one trace naming the member and its calls, marked skipped-on-error exactly when the last answer failed and skipped-no-header exactly when it lacked a header without error; at most one save, for that id |
| Reconciler.VisitMemberWrites | main.go:255-286 | No save for a skipped member; for a fetched one, no save exactly when the record exists and compares unchanged, otherwise one Update of the stored record (also updated in memory) or one Create from an empty record, with the candidate fields set |
| Reconciler.VisitAll | main.go:206-287 | The roster loop: every entry visited once, in roster order, each starting from the state the previous one left; `VisitAllSeen`, `VisitAllTraces` and `VisitAllSaves` state what it computes |
| Reconciler.VisitAllSeen | main.go:204-224 | After the loop the seen set is exactly the ids of the usable fetches, and no in-memory record was added or removed |
| Reconciler.VisitAllTraces | main.go:206-222 | One trace per roster entry, in roster order, each describing that entry's fetch |
| Reconciler.VisitAllSaves | main.go:223-286 | Saves are only appended, and each names an id that the pass saw |
| Reconciler.ApplySaves | main.go:270-285 | Applying saves only adds ids of accepted saves, and an id that no accepted save names keeps its record: a rejected save changes nothing |
| Reconciler.ApplySavesLands | main.go:270-285 | An accepted save that no later accepted save to the same id follows leaves its fields stored under its id |
| Reconciler.Reconcile | main.go:191-299 | A failed listing returns before any save or delete with the store untouched; otherwise the deletes are exactly the non-empty listed ids that no usable fetch produced |
| ReconcilerProofs.SavedStoreKeys | main.go:223-286 | Before the sweep, a failure-free pass stores the old ids plus exactly the seen ids, and saves only seen ids |
| ReconcilerProofs.Converges | main.go:197-299 | A failure-free pass leaves exactly the fetched ids, plus an id-less record, which stays unchanged |
| ReconcilerProofs.ConvergesToProfiles | main.go:255-286 | With consistent profiles and a schema holding every candidate name, every fetched member's stored record compares unchanged against its profile |
| ReconcilerProofs.QuietWalk | main.go:255-268 | When every fetched member's record already matches, the loop saves nothing and changes no in-memory record |
| ReconcilerProofs.SecondPassIsQuiet | main.go:255-298 | If roster entries that share a character id carry the same profile, and the schema holds every candidate field name, then after a failure-free pass a second pass over the same answers makes no save and no delete and leaves the store as it found it, even if it reads the store back in an equivalent shape and even if the store then rejects writes |
| ReconcilerProofs.ConflictingDuplicatesResave | main.go:255-286 | Two roster entries that fetch the same character with profiles differing in normal form each update its record; starting from a record that matches the later profile, the pass issues two updates and leaves a record that again matches it, so every later failure-free pass repeats both |
| PassFacts.PassTracesEveryMember | main.go:206-222 | A pass that could list the store has one trace per roster entry, in order, each with 1 to 3 calls and its skip reason |
| PassFacts.PassSavesOnlySeen | main.go:223-298 | Saved ids are seen ids, so no id is both saved and deleted, and the empty id is never deleted |
| PassFacts.FailuresDoNotStopThePass | main.go:270-298 | Rejected saves and deletes change neither the member traces nor which saves and deletes are issued |
| PassFacts.StoreAfterPass | main.go:270-298 | A delete that lands removes the record; one that fails leaves it as listed; a record neither deleted nor named by an accepted save is untouched, so a rejected save changes nothing; an accepted save not followed by another accepted save to its id is what the store holds for that id; only listed or accepted ids are stored |
| PassFacts.UnfetchedRecordDeleted | main.go:223-298 | A listed record with a non-empty id that no usable fetch produces is deleted: gone unless the delete is rejected, then left as listed |
| PassFacts.SkippedMemberDeleted | main.go:214-298 | A roster entry whose three calls all lack a header, and whose character no other entry fetches, has its stored record deleted: gone unless the delete is rejected, then left as listed |
| PassFacts.ConflictingDuplicatesExample | main.go:255-286 | Example: entries for character 42 at level 79 and at level 80, against the stored level-80 record, give two updates of record 42 and leave it matching level 80 again |
| PassFacts.SkippedMemberRecordIsDeleted | main.go:219-298 | Example: one member with id 42 and three header-less answers is skipped after three calls, and its record is deleted, leaving the store empty |
| Registry.TokenGranted | selfupdate.go:37-61 | `getGHCRToken` yields a token exactly when the token endpoint is reachable, answers 200 and its body decodes |
| Registry.RemoteDigest | selfupdate.go:65-102 | The remote digest succeeds exactly when a token was granted, the manifest answered 200 and carried a digest header; a returned digest is non-empty and is that header |
| Registry.PickDigest | selfupdate.go:135-140 | None exactly when no entry names the image; otherwise the prefix plus the result is the first entry that does |
| Registry.LocalDigest | selfupdate.go:120-140 | 404 gives "" without error; an error exactly on transport failure, on a status other than 200 and 404, or on an undecodable body |
| Registry.LocalDigestNamesFirstMatch | selfupdate.go:135-137 | A non-empty local digest comes from a readable 200 reply, and the prefix plus the digest equals the first entry that names the image |
| Registry.LocalDigestEmpty | selfupdate.go:135-140 | On a readable 200 reply, "" comes back exactly when no entry names the image or the first one that does stops at the prefix |
| Engine.FirstFault | selfupdate.go:166-177 | None exactly when every stream item is a clean event; otherwise the position of the first decoding error or `error` event |
| Engine.PullSucceeded | selfupdate.go:144-180 | `pullImage` succeeds exactly when the daemon is reachable, answers 200 and the stream has no faulty item before its end; `PullSucceedsIff` and `ReadPullStream` state this item by item |
| Engine.ReadPullStream | selfupdate.go:165-179 | The read loop succeeds exactly when no item is faulty, reading the whole stream; otherwise it stops right after the first faulty item; it agrees with `FirstFault`, which the controller's `PullSucceeded` uses |
| Engine.PullSucceedsIff | selfupdate.go:159-179 | The pull succeeds exactly when the status is 200 and every item decodes to an event without an `error` key |
| Engine.PullIgnoresRestOfStream | selfupdate.go:166-177 | Items after the first faulty one are never read: appending to a failed stream changes nothing |
| Engine.ContainerId | selfupdate.go:198-213 | An error exactly on transport failure, a status other than 200 or an undecodable body; otherwise the first container's id, or "" for an empty list |
| Engine.RestartSucceeded | selfupdate.go:217-239 | `restartContainer` succeeds exactly when the daemon is reachable and answers 204 or 200 |
| SelfUpdate.WatchForUpdates | selfupdate.go:242-292 | One to five calls, the i-th always in stage i of remote → local → pull → list → restart |
| SelfUpdate.CallsInOrder | selfupdate.go:248-291 | Each sub-call is issued at most once, in the fixed order |
| SelfUpdate.UpToDateIsNoOp | selfupdate.go:262-265 | Equal digests: only the two digest checks, no pull, list or restart, and a normal return |
| SelfUpdate.EmptyLocalDigestPulls | selfupdate.go:262-268 | A successful remote digest is never empty, so an empty local digest always leads to a pull |
| SelfUpdate.EarlyErrorsEndQuietly | selfupdate.go:248-279 | A failure of the remote digest, local digest, pull or listing ends the pass normally with no later call |
| SelfUpdate.ExitsIff | selfupdate.go:275-291 | The pass exits with status 1 exactly when the pull succeeded and the listing answered but named no container, or the restart answered neither 200 nor 204 |
| SelfUpdate.RestartsIff | selfupdate.go:280-287 | A restart is issued exactly when the listing named a container, and it targets that container's id |

## Left out

- HTTP, the Docker unix socket, JSON decoding and the registry token exchange are not modelled. Each exchange is an input reply value, with transport failure and an undecodable body as its own cases.
- `ThrottledTransport` is not modelled. Its rate limiting lives in a library this model does not cover.
- Sleeps are recorded as durations, not performed. The cron schedule, the context timeout and the goroutine that starts a pass are left out as timing and concurrency.
- PocketBase setup is left out: migrations, settings, collection creation in `init`, environment loading, `main` and static serving. The collection's field names appear only as `Profiles.CollectionFieldNames`, and the schema is an input to the pass.
- Logging is left out, and `os.Exit(1)` is the `Exit1` outcome.
- The roster is an input. A failed roster fetch is only logged, and what the game-data library returns then is not part of this model.
- Profile answers always carry a profile value, because the client library returns one even on error. A failed or header-less answer's profile is never read.
- A failing collection lookup (main.go:186-189) is only logged and leaves a nil collection. The listing at main.go:191 would normally fail first; if it did not, Go would dereference the nil collection both when building a new record (main.go:277) and in `setRecordFields` on the update path (main.go:160, 269). The model takes the schema as given.
- Values.Normalize: an integral float prints as its exact integer, which is Go's `FormatInt` branch (main.go:145, 150) only while the value survives the conversion to int64 (float64) or int32 (float32). Beyond that range Go takes the `FormatFloat` branch, which prints the shortest round-trip digits padded with zeros (float64 1e23 prints "100000000000000000000000", float32 2147483904 prints "2147484000"); that branch is not modelled for integral values. For fractional floats the binary-to-decimal conversion of `FormatFloat` is not modelled either: a fractional float is held as the text it prints. NaN and ±Inf (printed "NaN", "+Inf", "-Inf" at main.go:147, 152) are left out.
- Values.NormalizeComparesNumbersByValue compares model floats, and a fractional model float is its printed text, not a binary value. For Go it holds for integral floats only within the int64/int32 range described above: beyond it, equal values can print differently (float32 2147483904 prints "2147484000", float64 2147483904 prints "2147483904"). For fractional floats of different widths it fails both ways: float32 0.1 and float64 0.1 are different numbers that both print "0.1" (main.go:147, 152), and float32 0.1 and its exact float64 widening are the same number that print "0.1" and "0.10000000149011612".
- Values.FloatTextInjective is injectivity of the model's float text; for fractional floats the model float is that text, so the lemma says nothing about distinct binary floats of different widths.
- `Value.Int` is an unbounded integer where Go's `int` has 64 bits. The pass does no arithmetic on these values, so only their range differs.
- PocketBase's own coercion of values on `Set` and on read-back is not modelled. Instead, `ReconcilerProofs.SecondPassIsQuiet` accepts any store whose records match the first pass's result field by field in normal form.
- ReconcilerProofs.SecondPassIsQuiet requires consistent duplicates and a schema that knows every candidate name, and the code needs both. Roster entries that fetch the same character with different profiles overwrite each other and re-save on every failure-free pass (`ReconcilerProofs.ConflictingDuplicatesResave`). A candidate field that the schema lacks is never written, so a record that differs in it keeps being saved (`Records.UnknownFieldKeepsDiffering`).
- ReconcilerProofs.ConvergesToProfiles requires that roster entries sharing a character id carry the same profile. With conflicting duplicates the last write wins, so the record matches only the last such entry; `ReconcilerProofs.ConflictingDuplicatesResave` states this for two entries.
- SelfUpdate.WatchForUpdates requires that a found container id has at least 12 characters. Go slices `containerID[:12]` for the log line and would panic on a shorter id; that panic is not modelled.
- Whether the store accepts a save or a delete is an input. PocketBase's validation, and a create for an id created earlier in the same pass, are covered only through those failure inputs.

=== FILE: decimal.dfy ===
/**
 * Base-10 text of integers, as produced by `strconv.Itoa`, `strconv.FormatInt(_, 10)`
 * and the `%v` verb on Go integers. Record ids and normalised numbers are built from it,
 * so the lemmas here show that different numbers never print alike.
 */
module Decimal {

  type Digit = d: nat | d < 10

  predicate IsDigitChar(c: char) {
    '0' <= c <= '9'
  }

  function DigitChar(d: Digit): (c: char)
    ensures IsDigitChar(c)
  {
    ('0' as int + d) as char
  }

  /** Decimal text of a natural number: no sign, no leading zeros. */
  function NatText(n: nat): (s: string)
    ensures |s| >= 1
    ensures n >= 10 ==> |s| >= 2
    ensures forall i :: 0 <= i < |s| ==> IsDigitChar(s[i])
    ensures s[0] == '0' ==> n == 0
  {
    if n < 10 then [DigitChar(n)] else NatText(n / 10) + [DigitChar(n % 10)]
  }

  /** Decimal text of an integer: a leading '-' for negative numbers. */
  function IntText(i: int): (s: string)
    ensures |s| >= 1
    ensures s[0] == '-' <==> i < 0
    ensures '.' !in s
  {
    if i < 0 then "-" + NatText(-i) else NatText(i)
  }

  lemma DigitCharInjective(a: Digit, b: Digit)
    requires DigitChar(a) == DigitChar(b)
    ensures a == b
  {
    assert DigitChar(a) as int == '0' as int + a;
    assert DigitChar(b) as int == '0' as int + b;
  }

  /** Two naturals print alike exactly when they are equal. */
  lemma {:induction false} NatTextInjective(a: nat, b: nat)
    ensures NatText(a) == NatText(b) <==> a == b
  {
    if NatText(a) == NatText(b) {
      var s := NatText(a);
      if a < 10 && b < 10 {
        assert s == [DigitChar(a)] && s == [DigitChar(b)];
        DigitCharInjective(a, b);
      } else if a >= 10 && b >= 10 {
        assert s == NatText(a / 10) + [DigitChar(a % 10)];
        assert s == NatText(b / 10) + [DigitChar(b % 10)];
        assert NatText(a / 10) == s[..|s| - 1] == NatText(b / 10);
        NatTextInjective(a / 10, b / 10);
        assert DigitChar(a % 10) == s[|s| - 1] == DigitChar(b % 10);
        DigitCharInjective(a % 10, b % 10);
      }
    }
  }

  /** Two integers print alike exactly when they are equal. */
  lemma IntTextInjective(a: int, b: int)
    ensures IntText(a) == IntText(b) <==> a == b
  {
    if IntText(a) == IntText(b) {
      var s := IntText(a);
      if a < 0 {
        assert b < 0;
        assert s[1..] == NatText(-a) && s[1..] == NatText(-b);
        NatTextInjective(-a, -b);
      } else {
        assert b >= 0;
        NatTextInjective(a, b);
      }
    }
  }
}

=== FILE: engine.dfy ===
/**
 * How the self-updater reads the Docker Engine's replies (selfupdate.go): the pull's
 * progress stream, the container listing and the restart status.
 */
module Engine {
  import opened Wrappers
  import opened Registry

  /** One item read from the pull's newline-delimited JSON stream. */
  datatype Chunk =
    | Event(keys: set<string>)   // a decoded JSON object, by its keys
    | Garbled                    // a decoding error other than end of stream

  /** Reply to the pull request; `stream` is everything read before end of stream. */
  datatype PullReply = PullUnreachable | PullReply(status: int, stream: seq<Chunk>)

  /** Reply to the container listing: the `Id` of each entry, or None when the body does not decode. */
  datatype ListReply = ListUnreachable | ListReply(status: int, ids: Option<seq<string>>)

  datatype RestartReply = RestartUnreachable | RestartReply(status: int)

  /** A stream item that stops the pull: a decoding error, or an event carrying an `error` key. */
  predicate Faulty(c: Chunk) {
    c.Garbled? || "error" in c.keys
  }

  /** Where the pull stops reading: the first faulty item, if any. */
  function FirstFault(stream: seq<Chunk>): (r: Option<nat>)
    ensures r.None? <==> forall i :: 0 <= i < |stream| ==> !Faulty(stream[i])
    ensures r.Some? ==> r.value < |stream| && Faulty(stream[r.value])
                        && forall i :: 0 <= i < r.value ==> !Faulty(stream[i])
  {
    if |stream| == 0 then None
    else if Faulty(stream[0]) then Some(0)
    else
      var r := FirstFault(stream[1..]);
      assert forall i :: 1 <= i < |stream| ==> stream[i] == stream[1..][i - 1];
      if r.None? then None else Some(r.value + 1)
  }

  /**
   * `pullImage` succeeds: status 200 and a stream read to its end without a faulty
   * item.
   */
  predicate PullSucceeded(p: PullReply) {
    p.PullReply? && p.status == StatusOK && FirstFault(p.stream).None?
  }

  /**
   * The pull's read loop: decode items until end of stream, returning at the first
   * decoding error or the first event with an `error` key. `read` counts the items
   * consumed.
   */
  method ReadPullStream(stream: seq<Chunk>) returns (ok: bool, read: nat)
    ensures read <= |stream|
    ensures ok <==> forall i :: 0 <= i < |stream| ==> !Faulty(stream[i])
    ensures ok ==> read == |stream|
    ensures !ok ==> read >= 1 && Faulty(stream[read - 1])
                    && forall i :: 0 <= i < read - 1 ==> !Faulty(stream[i])
    ensures ok <==> FirstFault(stream).None?
    ensures !ok ==> read == FirstFault(stream).value + 1
  {
    read := 0;
    while read < |stream|
      invariant read <= |stream|
      invariant forall i :: 0 <= i < read ==> !Faulty(stream[i])
    {
      var c := stream[read];
      read := read + 1;
      if c.Garbled? {
        return false, read;
      }
      if "error" in c.keys {
        return false, read;
      }
    }
    ok := true;
  }

  /** The pull succeeds exactly when status is 200 and every item is an event without an `error` key. */
  lemma PullSucceedsIff(p: PullReply)
    ensures PullSucceeded(p) <==>
              p.PullReply? && p.status == StatusOK
              && forall i :: 0 <= i < |p.stream| ==> p.stream[i].Event? && "error" !in p.stream[i].keys
  {
  }

  /** Everything after the first faulty item is never looked at. */
  lemma PullIgnoresRestOfStream(status: int, stream: seq<Chunk>, rest: seq<Chunk>)
    requires FirstFault(stream).Some?
    ensures !PullSucceeded(PullReply(status, stream + rest))
    ensures FirstFault(stream + rest) == FirstFault(stream)
  {
    var k := FirstFault(stream).value;
    assert (stream + rest)[k] == stream[k];
    var r := FirstFault(stream + rest);
    assert r.Some?;
    assert !(r.value < k) && !(k < r.value) by {
      assert forall i :: 0 <= i < |stream| ==> (stream + rest)[i] == stream[i];
    }
  }

  /**
   * `getContainerID`: an error on transport failure, a status other than 200 or an
   * undecodable body; otherwise the first listed container's id, or "" when none
   * is listed.
   */
  function ContainerId(l: ListReply): (r: Result<string>)
    ensures r.Err? <==> l.ListUnreachable? || l.status != StatusOK || l.ids.None?
    ensures r.Ok? && |l.ids.value| > 0 ==> r.value == l.ids.value[0]
    ensures r.Ok? && |l.ids.value| == 0 ==> r.value == ""
  {
    if l.ListUnreachable? || l.status != StatusOK then Err
    else if l.ids.None? then Err
    else if |l.ids.value| == 0 then Ok("")
    else Ok(l.ids.value[0])
  }

  /** `restartContainer` succeeds: the daemon answered 204 or 200. */
  predicate RestartSucceeded(r: RestartReply) {
    r.RestartReply? && (r.status == StatusNoContent || r.status == StatusOK)
  }
}

=== FILE: fetch.dfy ===
/**
 * The bounded retry around one member's profile fetch (main.go, inside the roster
 * loop). Each call to the remote API is one scripted `Attempt`.
 */
module Fetch {
  import opened Wrappers
  import opened Profiles

  /** `maxRetries`: calls allowed per member, the first one included. */
  const MaxRetries: nat := 3

  /** Back-off unit: the sleep before retry number k is k units. */
  const BackoffUnitMs: nat := 100

  /**
   * What one profile call returned: the decoded profile, whether response metadata
   * (the header) came back, and whether an error came back.
   */
  datatype Attempt = Attempt(profile: Profile, header: bool, failed: bool)

  /** The calls made for a member, the sleeps between them, and the answer kept. */
  datatype Fetched = Fetched(calls: nat, sleepsMs: seq<nat>, last: Attempt) {
    /** The kept answer carries no error and has a header: the member is processed. */
    predicate Usable() {
      !last.failed && last.header
    }

    /** The profile the member contributes to the pass, if any. */
    function Outcome(): Option<Profile> {
      if Usable() then Some(last.profile) else None
    }
  }

  /**
   * Calls made when `made` calls have been made so far: retry while the latest
   * answer has no header and the budget is not spent.
   */
  function CallsFrom(answers: seq<Attempt>, made: nat): (calls: nat)
    requires 1 <= made <= MaxRetries <= |answers|
    ensures made <= calls <= MaxRetries
    ensures forall i :: made - 1 <= i < calls - 1 ==> !answers[i].header
    ensures calls < MaxRetries ==> answers[calls - 1].header
    decreases MaxRetries - made
  {
    if made < MaxRetries && !answers[made - 1].header then CallsFrom(answers, made + 1) else made
  }

  /** The sleeps before retries 1..n: k back-off units before retry k. */
  function Backoffs(n: nat): (s: seq<nat>)
    ensures |s| == n
    ensures forall k :: 0 <= k < n ==> s[k] == (k + 1) * BackoffUnitMs
  {
    if n == 0 then [] else Backoffs(n - 1) + [n * BackoffUnitMs]
  }

  /**
   * Fetch one member's profile: one call, then a retry after `attempt` back-off units
   * for as long as the header is missing, up to `MaxRetries` calls in all. The error
   * flag plays no part in the decision to retry.
   */
  function FetchProfile(answers: seq<Attempt>): (f: Fetched)
    requires |answers| >= MaxRetries
    ensures 1 <= f.calls <= MaxRetries
    ensures f.last == answers[f.calls - 1]
    ensures forall i :: 0 <= i < f.calls - 1 ==> !answers[i].header
    ensures f.calls < MaxRetries ==> answers[f.calls - 1].header
    ensures |f.sleepsMs| == f.calls - 1
    ensures forall k :: 0 <= k < |f.sleepsMs| ==> f.sleepsMs[k] == (k + 1) * BackoffUnitMs
  {
    var calls := CallsFrom(answers, 1);
    Fetched(calls, Backoffs(calls - 1), answers[calls - 1])
  }

  /** How many calls are made depends only on which answers carried a header. */
  lemma RetryIgnoresErrors(a: seq<Attempt>, b: seq<Attempt>)
    requires |a| >= MaxRetries && |b| >= MaxRetries
    requires forall i :: 0 <= i < MaxRetries ==> a[i].header == b[i].header
    ensures FetchProfile(a).calls == FetchProfile(b).calls
  {
    var ca, cb := FetchProfile(a).calls, FetchProfile(b).calls;
    assert ca < MaxRetries ==> a[ca - 1].header;
    assert cb < MaxRetries ==> b[cb - 1].header;
  }

  /** A member whose every answer lacks a header is called exactly `MaxRetries` times and skipped. */
  lemma HeaderlessMemberSkipped(answers: seq<Attempt>)
    requires |answers| >= MaxRetries
    requires forall i :: 0 <= i < MaxRetries ==> !answers[i].header
    ensures FetchProfile(answers).calls == MaxRetries
    ensures FetchProfile(answers).sleepsMs == [100, 200]
    ensures FetchProfile(answers).Outcome() == None
  {
    var f := FetchProfile(answers);
    assert f.calls == MaxRetries;
    assert f.sleepsMs == [100, 200];
  }

  /** An answer with a header ends the retries even when it also carries an error; the member is then skipped. */
  lemma ErrorWithHeaderIsNotRetried(answers: seq<Attempt>)
    requires |answers| >= MaxRetries
    requires answers[0].header && answers[0].failed
    ensures FetchProfile(answers).calls == 1
    ensures FetchProfile(answers).sleepsMs == []
    ensures FetchProfile(answers).Outcome() == None
  {
  }
}

=== FILE: pass_facts.dfy ===
/**
 * Per-call facts about one reconciliation pass: its member traces, which of its saves and
 * deletes land, and how store failures leave the rest of the pass alone.
 */
module PassFacts {
  import opened Wrappers
  import opened Decimal
  import opened Values
  import opened Records
  import opened Profiles
  import opened Fetch
  import opened Reconciler
  import opened ReconcilerProofs

  /** A pass that could list the store has one trace per roster entry, in roster order. */
  lemma PassTracesEveryMember(db: Store, turns: seq<Turn>, schema: set<string>,
                            saveFails: set<nat>, deleteFails: set<string>)
    requires Scripted(turns)
    ensures var r := Reconcile(db, false, turns, schema, saveFails, deleteFails);
            var vs := FetchAll(turns);
            && |r.traces| == |turns|
            && forall i :: 0 <= i < |turns| ==>
                 TracesVisit(r.traces[i], vs[i]) && 1 <= r.traces[i].calls <= MaxRetries
  {
    var vs := FetchAll(turns);
    var w := VisitAll(Start(db), vs, schema);
    VisitAllTraces(Start(db), vs, schema);
    assert Reconcile(db, false, turns, schema, saveFails, deleteFails).traces == w.traces;
    forall i | 0 <= i < |turns| ensures 1 <= w.traces[i].calls <= MaxRetries {
      assert w.traces[|Start(db).traces| + i].calls == vs[i].fetch.calls;
    }
  }

  /** Saves go only to ids the pass has seen, so never to an id it deletes, and "" is never deleted. */
  lemma PassSavesOnlySeen(db: Store, turns: seq<Turn>, schema: set<string>,
                          saveFails: set<nat>, deleteFails: set<string>)
    requires Scripted(turns)
    ensures var r := Reconcile(db, false, turns, schema, saveFails, deleteFails);
            && SavedIds(r.saves) <= SeenIds(FetchAll(turns))
            && SavedIds(r.saves) !! r.deletes
            && "" !in r.deletes
  {
    SavedStoreKeys(db, FetchAll(turns), schema);
  }

  /**
   * A failing save or delete does not stop the pass: the member traces, the saves issued and
   * the deletes issued are the same whichever of them the store rejects.
   */
  lemma FailuresDoNotStopThePass(db: Store, turns: seq<Turn>, schema: set<string>,
                                 saveFails: set<nat>, deleteFails: set<string>,
                                 saveFails': set<nat>, deleteFails': set<string>)
    requires Scripted(turns)
    ensures var r := Reconcile(db, false, turns, schema, saveFails, deleteFails);
            var r' := Reconcile(db, false, turns, schema, saveFails', deleteFails');
            r.traces == r'.traces && r.saves == r'.saves && r.deletes == r'.deletes
  {
  }

  /**
   * Where the store ends up: a delete that lands removes the record, one that fails
   * leaves it as listed, a record neither deleted nor named by an accepted save is
   * untouched (a rejected save changes nothing), and only ids listed or accepted are
   * stored.
   */
  lemma StoreAfterPass(db: Store, turns: seq<Turn>, schema: set<string>,
                       saveFails: set<nat>, deleteFails: set<string>)
    requires Scripted(turns)
    ensures var r := Reconcile(db, false, turns, schema, saveFails, deleteFails);
            && r.store.Keys <= db.Keys + AcceptedIds(r.saves, saveFails)
            && (forall id :: id in r.deletes && id !in deleteFails ==> id !in r.store)
            && (forall id :: id in r.deletes && id in deleteFails ==> id in r.store && r.store[id] == db[id])
            && (forall id :: id in db && id !in r.deletes && id !in AcceptedIds(r.saves, saveFails) ==>
                  id in r.store && r.store[id] == db[id])
            && (forall k: nat :: Lands(r.saves, saveFails, k) ==>
                  r.saves[k].id in r.store && r.store[r.saves[k].id] == r.saves[k].fields)
  {
    var r := Reconcile(db, false, turns, schema, saveFails, deleteFails);
    PassSavesOnlySeen(db, turns, schema, saveFails, deleteFails);
    forall k: nat | Lands(r.saves, saveFails, k)
      ensures r.saves[k].id in r.store && r.store[r.saves[k].id] == r.saves[k].fields
    {
      ApplySavesLands(db, r.saves, saveFails, k);
      assert r.saves[k].id in SavedIds(r.saves);
    }
  }

  /**
   * A listed record with a non-empty id that no usable fetch produces is deleted by the
   * sweep; it is gone unless the store rejects that delete, and then stays as listed.
   */
  lemma UnfetchedRecordDeleted(db: Store, turns: seq<Turn>, schema: set<string>,
                               saveFails: set<nat>, deleteFails: set<string>, id: string)
    requires Scripted(turns)
    requires id in db && id != ""
    requires forall i :: 0 <= i < |turns| ==>
               FetchProfile(turns[i].answers).Outcome().None?
               || RecordId(FetchProfile(turns[i].answers).Outcome().value) != id
    ensures var r := Reconcile(db, false, turns, schema, saveFails, deleteFails);
            && id in r.deletes
            && (id !in deleteFails ==> id !in r.store)
            && (id in deleteFails ==> id in r.store && r.store[id] == db[id])
  {
    var vs := FetchAll(turns);
    assert id !in SeenIds(vs) by {
      forall i | 0 <= i < |vs| && vs[i].fetch.Usable() ensures RecordId(vs[i].fetch.last.profile) != id {
        assert vs[i].fetch.Outcome() == Some(vs[i].fetch.last.profile);
      }
    }
    StoreAfterPass(db, turns, schema, saveFails, deleteFails);
  }

  /**
   * A roster entry whose every profile call comes back without a header is skipped,
   * and unless another entry fetches the same character, the sweep deletes its stored
   * record; the record is gone unless the store rejects that delete. The program never
   * reads the profile of a header-less answer: the last answer's profile serves here
   * only to name which stored record is the member's.
   */
  lemma SkippedMemberDeleted(db: Store, turns: seq<Turn>, schema: set<string>,
                             saveFails: set<nat>, deleteFails: set<string>, k: nat, id: string)
    requires Scripted(turns) && k < |turns|
    requires forall a :: 0 <= a < MaxRetries ==> !turns[k].answers[a].header
    requires id in db && id == RecordId(turns[k].answers[MaxRetries - 1].profile)
    requires forall i :: 0 <= i < |turns| && i != k ==>
               FetchProfile(turns[i].answers).Outcome().None?
               || RecordId(FetchProfile(turns[i].answers).Outcome().value) != id
    ensures var r := Reconcile(db, false, turns, schema, saveFails, deleteFails);
            && id in r.deletes
            && (id !in deleteFails ==> id !in r.store)
            && (id in deleteFails ==> id in r.store && r.store[id] == db[id])
  {
    HeaderlessMemberSkipped(turns[k].answers);
    UnfetchedRecordDeleted(db, turns, schema, saveFails, deleteFails, id);
  }

  /** A character with id 42 and nothing else set. */
  function Character42(): Profile {
    Profile(42, "Thrall", "draenor", "Draenor", 1, "MALE", "Male", "HORDE", "Horde",
            2, "Orc", 7, "Shaman", 263, "Enhancement", "", 0, "", 0, "",
            80, 0, 0, 0, 0, 0, 0, "", "")
  }

  /**
   * A member whose three profile calls all come back without a header is skipped
   * after three calls, and its stored record is deleted by the sweep.
   */
  lemma SkippedMemberRecordIsDeleted()
    ensures var a := Attempt(Character42(), false, false);
            var turns := [Turn(Member("thrall", "draenor"), [a, a, a])];
            var db := map["42" := map["name" := Str("Thrall")]];
            var r := Reconcile(db, false, turns, CharacterFieldNames, {}, {});
            && r.deletes == {"42"} && r.store == map[] && r.saves == []
            && |r.traces| == 1 && r.traces[0].calls == 3 && r.traces[0].verdict == SkippedNoHeader
  {
    var a := Attempt(Character42(), false, false);
    var turns := [Turn(Member("thrall", "draenor"), [a, a, a])];
    var vs := FetchAll(turns);
    assert !vs[0].fetch.Usable();
    assert SeenIds(vs) == {};
  }

  /** The same character at level 79: what a second, stale roster entry for it might fetch. */
  function Character42AtLevel79(): Profile {
    Character42().(level := 79)
  }

  /** The two profiles of character 42 differ in the normal form of their level. */
  lemma LevelsDiffer()
    ensures !SameNormalized(CandidateFields(Character42AtLevel79()), CandidateFields(Character42()))
  {
    IntTextInjective(79, 80);
    assert Get(CandidateFields(Character42AtLevel79()), "level") == Int(79);
    assert Normalize(Int(79)) != Normalize(Int(80));
  }

  /**
   * Example: two roster entries fetch character 42, at level 79 and at level 80, and
   * the store already holds the level-80 record a failure-free pass leaves. The pass
   * updates the record twice, and the record again matches level 80, so the next
   * failure-free pass does the same.
   */
  lemma ConflictingDuplicatesExample()
    ensures var stale := Attempt(Character42AtLevel79(), true, false);
            var current := Attempt(Character42(), true, false);
            var turns := [Turn(Member("thrall", "draenor"), [stale, stale, stale]),
                          Turn(Member("thrall", "draenor"), [current, current, current])];
            var db := map["42" := CandidateFields(Character42())];
            var r := Reconcile(db, false, turns, CharacterFieldNames, {}, {});
            && |r.saves| == 2 && r.saves[0].id == r.saves[1].id == "42"
            && "42" in r.store && SameNormalized(r.store["42"], CandidateFields(Character42()))
  {
    var stale := Attempt(Character42AtLevel79(), true, false);
    var current := Attempt(Character42(), true, false);
    var turns := [Turn(Member("thrall", "draenor"), [stale, stale, stale]),
                  Turn(Member("thrall", "draenor"), [current, current, current])];
    var db := map["42" := CandidateFields(Character42())];
    assert RecordId(Character42()) == "42" by {
      assert NatText(42) == NatText(4) + [DigitChar(2)];
    }
    assert FetchProfile(turns[0].answers).calls == 1;
    assert FetchProfile(turns[1].answers).calls == 1;
    LevelsDiffer();
    ConflictingDuplicatesResave(db, turns, CharacterFieldNames, Character42AtLevel79(), Character42());
  }
}

=== FILE: profiles.dfy ===
/**
 * The character profile summary returned by the game-data API, and the candidate
 * field mapping the reconciler builds from it (main.go, the `fieldValues` literal).
 */
module Profiles {
  import opened Decimal
  import opened Values
  import opened Records

  /** The parts of a character profile summary the reconciler reads. */
  datatype Profile = Profile(
    id: int,
    name: string,
    realmSlug: string,
    realmName: string,
    realmId: int,
    genderType: string,
    genderName: string,
    factionType: string,
    factionName: string,
    raceId: int,
    raceName: string,
    classId: int,
    className: string,
    specId: int,
    specName: string,
    guildName: string,
    guildId: int,
    guildRealmName: string,
    guildRealmId: int,
    guildRealmSlug: string,
    level: int,
    experience: int,
    achievementPoints: int,
    lastLoginTimestamp: int,
    averageItemLevel: int,
    equippedItemLevel: int,
    titleId: int,
    titleName: string,
    titleDisplayString: string
  )

  /** The names the reconciler writes for every character. */
  const CharacterFieldNames: set<string> := {
    "name", "realm", "realm_name", "realm_id", "gender_type", "gender_name",
    "faction_type", "faction_name", "race_id", "race_name", "character_class_id",
    "character_class_name", "active_spec_id", "active_spec_name", "guild_name",
    "guild_id", "guild_realm_name", "guild_realm_id", "guild_realm_slug", "level",
    "experience", "achievement_points", "last_login_timestamp", "average_item_level",
    "equipped_item_level", "active_title_id", "active_title_name",
    "active_title_display_string"
  }

  /** The fields the "characters" collection is created with, besides its id field. */
  const CollectionFieldNames: set<string> := {
    "id",
    "name", "realm", "gender_type", "gender_name", "faction_type", "faction_name",
    "race_id", "race_name", "character_class_id", "character_class_name",
    "active_spec_id", "active_spec_name", "realm_name", "realm_id", "guild_name",
    "guild_id", "guild_realm_name", "guild_realm_id", "guild_realm_slug", "level",
    "experience", "achievement_points", "last_login_timestamp", "average_item_level",
    "equipped_item_level", "active_title_id", "active_title_name",
    "active_title_display_string"
  }

  /** A record's id: the decimal text of the profile's numeric id. */
  function RecordId(p: Profile): (id: string)
    ensures id != ""
  {
    IntText(p.id)
  }

  /** The candidate values for a record, one per name in `CharacterFieldNames`. */
  function CandidateFields(p: Profile): Fields {
    map[
      "name" := Str(p.name),
      "realm" := Str(p.realmSlug),
      "realm_name" := Str(p.realmName),
      "realm_id" := Int(p.realmId),
      "gender_type" := Str(p.genderType),
      "gender_name" := Str(p.genderName),
      "faction_type" := Str(p.factionType),
      "faction_name" := Str(p.factionName),
      "race_id" := Int(p.raceId),
      "race_name" := Str(p.raceName),
      "character_class_id" := Int(p.classId),
      "character_class_name" := Str(p.className),
      "active_spec_id" := Int(p.specId),
      "active_spec_name" := Str(p.specName),
      "guild_name" := Str(p.guildName),
      "guild_id" := Int(p.guildId),
      "guild_realm_name" := Str(p.guildRealmName),
      "guild_realm_id" := Int(p.guildRealmId),
      "guild_realm_slug" := Str(p.guildRealmSlug),
      "level" := Int(p.level),
      "experience" := Int(p.experience),
      "achievement_points" := Int(p.achievementPoints),
      "last_login_timestamp" := Int(p.lastLoginTimestamp),
      "average_item_level" := Int(p.averageItemLevel),
      "equipped_item_level" := Int(p.equippedItemLevel),
      "active_title_id" := Int(p.titleId),
      "active_title_name" := Str(p.titleName),
      "active_title_display_string" := Str(p.titleDisplayString)
    ]
  }

  /** Distinct numeric ids give distinct record ids. */
  lemma RecordIdInjective(p: Profile, q: Profile)
    ensures RecordId(p) == RecordId(q) <==> p.id == q.id
  {
    IntTextInjective(p.id, q.id);
  }

  /**
   * Every candidate field is one the collection schema defines, so every candidate
   * value is actually written; none is silently dropped by `setRecordFields`.
   */
  lemma CandidateFieldsKnown(p: Profile)
    ensures CandidateFields(p).Keys == CharacterFieldNames
    ensures CharacterFieldNames <= CollectionFieldNames
  {
  }
}

=== FILE: reconcile.dfy ===
/**
 * One guild-roster reconciliation pass (`blizzClient` in main.go) with its HTTP and
 * database plumbing taken out: the roster and every profile answer are inputs, and
 * the pass returns the saves and deletes it issues and the store they leave behind.
 */
module Reconciler {
  import opened Wrappers
  import opened Records
  import opened Profiles
  import opened Fetch

  /** A roster entry: the character to fetch. */
  datatype Member = Member(name: string, realmSlug: string)

  /** A roster entry together with the scripted answers to its profile calls. */
  datatype Turn = Turn(member: Member, answers: seq<Attempt>)

  /** A roster entry after its profile fetch, retries included. */
  datatype Visit = Visit(member: Member, fetch: Fetched)

  /** What the pass did with one roster entry. */
  datatype Verdict =
    | SkippedOnError
    | SkippedNoHeader
    | Unchanged(id: string)
    | Updated(id: string)
    | Created(id: string)

  /**
   * The model's record of one roster entry: the calls made, the sleeps between them
   * and what became of the entry. This is not the program's log output.
   */
  datatype MemberTrace = MemberTrace(member: Member, calls: nat, sleepsMs: seq<nat>, verdict: Verdict)

  /** A save issued to the store, carrying the record's full field map. */
  datatype Save = Create(id: string, fields: Fields) | Update(id: string, fields: Fields)

  /**
   * State of the roster loop: the in-memory `existingRecords` (updated in place by
   * `setRecordFields`), `rosterKeys`, and the saves issued and member traces so far.
   */
  datatype Walk = Walk(records: Store, seen: set<string>, saves: seq<Save>, traces: seq<MemberTrace>)

  /** Outcome of a pass: per-member traces, saves in order, deletes, and the resulting store. */
  datatype Report = Report(traces: seq<MemberTrace>, saves: seq<Save>, deletes: set<string>, store: Store)

  /** Every roster entry has an answer for each call the retry loop may make. */
  predicate Scripted(turns: seq<Turn>) {
    forall i :: 0 <= i < |turns| ==> |turns[i].answers| >= MaxRetries
  }

  /** Run every roster entry's fetch. */
  function FetchAll(turns: seq<Turn>): (vs: seq<Visit>)
    requires Scripted(turns)
    ensures |vs| == |turns|
    ensures forall i :: 0 <= i < |turns| ==> vs[i] == Visit(turns[i].member, FetchProfile(turns[i].answers))
  {
    seq(|turns|, i requires 0 <= i < |turns| && Scripted(turns) =>
      Visit(turns[i].member, FetchProfile(turns[i].answers)))
  }

  function IdsOf(p: Option<Profile>): set<string> {
    if p.Some? then {RecordId(p.value)} else {}
  }

  /** Ids of every successfully fetched roster entry: what `rosterKeys` should end up as. */
  function SeenIds(vs: seq<Visit>): set<string> {
    set i | 0 <= i < |vs| && vs[i].fetch.Usable() :: RecordId(vs[i].fetch.last.profile)
  }

  /** Ids named by a sequence of saves. */
  function SavedIds(saves: seq<Save>): set<string> {
    set i | 0 <= i < |saves| :: saves[i].id
  }

  /** `existingRecords`: the listed records by id, leaving out records with an empty id. */
  function Existing(listing: Store): (m: Store)
    ensures m.Keys == listing.Keys - {""}
    ensures forall id :: id in m ==> m[id] == listing[id]
  {
    map id | id in listing && id != "" :: listing[id]
  }

  function Start(listing: Store): Walk {
    Walk(Existing(listing), {}, [], [])
  }

  /**
   * One iteration of the roster loop after the fetch: skip on a final error or a
   * missing header; otherwise mark the id seen, and save only when the record is new
   * or some candidate field's normal form differs from the stored one.
   */
  function VisitMember(w: Walk, v: Visit, schema: set<string>): (r: Walk)
    ensures r.records.Keys == w.records.Keys
    ensures r.seen == w.seen + IdsOf(v.fetch.Outcome())
    ensures |r.traces| == |w.traces| + 1 && r.traces[..|w.traces|] == w.traces
    ensures r.traces[|w.traces|].member == v.member && r.traces[|w.traces|].calls == v.fetch.calls
    ensures r.traces[|w.traces|].verdict.SkippedOnError? <==> v.fetch.last.failed
    ensures r.traces[|w.traces|].verdict.SkippedNoHeader? <==> !v.fetch.last.failed && !v.fetch.last.header
    ensures |w.saves| <= |r.saves| <= |w.saves| + 1 && r.saves[..|w.saves|] == w.saves
    ensures |r.saves| > |w.saves| ==> r.saves[|w.saves|].id in IdsOf(v.fetch.Outcome())
  {
    var f := v.fetch;
    var entry := MemberTrace(v.member, f.calls, f.sleepsMs, SkippedOnError);
    if f.last.failed then
      w.(traces := w.traces + [entry])
    else if !f.last.header then
      w.(traces := w.traces + [entry.(verdict := SkippedNoHeader)])
    else
      var p := f.last.profile;
      var id := RecordId(p);
      var cand := CandidateFields(p);
      var seen := w.seen + {id};
      if id in w.records then
        if SameNormalized(w.records[id], cand) then
          w.(seen := seen, traces := w.traces + [entry.(verdict := Unchanged(id))])
        else
          var rec := SetRecordFields(w.records[id], schema, cand);
          Walk(w.records[id := rec], seen, w.saves + [Update(id, rec)], w.traces + [entry.(verdict := Updated(id))])
      else
        var rec := SetRecordFields(map[], schema, cand);
        Walk(w.records, seen, w.saves + [Create(id, rec)], w.traces + [entry.(verdict := Created(id))])
  }

  /**
   * The write decision for one roster entry: nothing is written for a skipped entry or
   * for a record whose candidate fields all compare unchanged; otherwise exactly one
   * save of the record with the candidate fields set, an update when the id is
   * already stored and a create otherwise.
   */
  lemma VisitMemberWrites(w: Walk, v: Visit, schema: set<string>)
    ensures var r := VisitMember(w, v, schema);
            && (v.fetch.Outcome().None? ==> r.saves == w.saves && r.records == w.records)
            && (v.fetch.Outcome().Some? ==>
                  var id := RecordId(v.fetch.Outcome().value);
                  var cand := CandidateFields(v.fetch.Outcome().value);
                  && (r.saves == w.saves <==> id in w.records && SameNormalized(w.records[id], cand))
                  && (r.saves == w.saves ==> r.records == w.records)
                  && (r.saves != w.saves ==>
                        var base := if id in w.records then w.records[id] else map[];
                        var rec := SetRecordFields(base, schema, cand);
                        && r.saves == w.saves + [if id in w.records then Update(id, rec) else Create(id, rec)]
                        && r.records == if id in w.records then w.records[id := rec] else w.records))
  {
  }

  lemma SeenIdsSnoc(vs: seq<Visit>)
    requires |vs| > 0
    ensures SeenIds(vs) == SeenIds(vs[..|vs| - 1]) + IdsOf(vs[|vs| - 1].fetch.Outcome())
  {
    var n := |vs| - 1;
    var pre := vs[..n];
    forall id | id in SeenIds(vs)
      ensures id in SeenIds(pre) + IdsOf(vs[n].fetch.Outcome())
    {
      var i :| 0 <= i < |vs| && vs[i].fetch.Usable() && id == RecordId(vs[i].fetch.last.profile);
      if i < n {
        assert pre[i] == vs[i];
      }
    }
    forall id | id in SeenIds(pre)
      ensures id in SeenIds(vs)
    {
      var i :| 0 <= i < n && pre[i].fetch.Usable() && id == RecordId(pre[i].fetch.last.profile);
      assert vs[i] == pre[i];
    }
  }

  /** The whole roster loop, one entry after the other in roster order. */
  function VisitAll(w: Walk, vs: seq<Visit>, schema: set<string>): Walk
    decreases |vs|
  {
    if |vs| == 0 then w else VisitMember(VisitAll(w, vs[..|vs| - 1], schema), vs[|vs| - 1], schema)
  }

  /**
   * The loop never adds or removes in-memory records, and `rosterKeys` ends up holding
   * exactly the ids of the entries whose fetch was usable.
   */
  lemma {:induction false} VisitAllSeen(w: Walk, vs: seq<Visit>, schema: set<string>)
    ensures VisitAll(w, vs, schema).records.Keys == w.records.Keys
    ensures VisitAll(w, vs, schema).seen == w.seen + SeenIds(vs)
    decreases |vs|
  {
    if |vs| > 0 {
      var n := |vs| - 1;
      VisitAllSeen(w, vs[..n], schema);
      SeenIdsSnoc(vs);
    }
  }

  /** A trace names its member and the calls made, and says whether and why the member was skipped. */
  predicate TracesVisit(l: MemberTrace, v: Visit) {
    && l.member == v.member && l.calls == v.fetch.calls
    && (l.verdict.SkippedOnError? <==> v.fetch.last.failed)
    && (l.verdict.SkippedNoHeader? <==> !v.fetch.last.failed && !v.fetch.last.header)
  }

  /** One trace per roster entry, in roster order, each describing that entry's visit. */
  lemma {:induction false} VisitAllTraces(w: Walk, vs: seq<Visit>, schema: set<string>)
    ensures var r := VisitAll(w, vs, schema);
            && |r.traces| == |w.traces| + |vs| && r.traces[..|w.traces|] == w.traces
            && forall i :: 0 <= i < |vs| ==> TracesVisit(r.traces[|w.traces| + i], vs[i])
    decreases |vs|
  {
    if |vs| > 0 {
      var n := |vs| - 1;
      var mid := VisitAll(w, vs[..n], schema);
      var r := VisitMember(mid, vs[n], schema);
      VisitAllTraces(w, vs[..n], schema);
      assert r.traces[..|mid.traces|] == mid.traces;
      forall i | 0 <= i < n
        ensures TracesVisit(r.traces[|w.traces| + i], vs[i])
      {
        assert r.traces[|w.traces| + i] == mid.traces[|w.traces| + i];
        assert vs[..n][i] == vs[i];
      }
    }
  }

  /** Saves are only appended, and every one of them is for an id the pass has seen. */
  lemma {:induction false} VisitAllSaves(w: Walk, vs: seq<Visit>, schema: set<string>)
    ensures var r := VisitAll(w, vs, schema);
            && |w.saves| <= |r.saves| && r.saves[..|w.saves|] == w.saves
            && forall i :: |w.saves| <= i < |r.saves| ==> r.saves[i].id in SeenIds(vs)
    decreases |vs|
  {
    if |vs| > 0 {
      var n := |vs| - 1;
      var mid := VisitAll(w, vs[..n], schema);
      var r := VisitMember(mid, vs[n], schema);
      VisitAllSaves(w, vs[..n], schema);
      SeenIdsSnoc(vs);
      assert r.saves[..|mid.saves|] == mid.saves;
      forall i | |w.saves| <= i < |r.saves|
        ensures r.saves[i].id in SeenIds(vs)
      {
        if i < |mid.saves| {
          assert r.saves[i] == mid.saves[i];
          assert r.saves[i].id in SeenIds(vs[..n]);
        } else {
          assert r.saves[i].id in IdsOf(vs[n].fetch.Outcome());
        }
      }
    }
  }

  /** Save `k` is accepted, and no later accepted save names the same id: its fields are what stays. */
  predicate Lands(saves: seq<Save>, fails: set<nat>, k: nat) {
    && k < |saves| && k !in fails
    && forall j :: k < j < |saves| && j !in fails ==> saves[j].id != saves[k].id
  }

  /** Ids named by the saves the store accepts. */
  function AcceptedIds(saves: seq<Save>, fails: set<nat>): set<string> {
    set i | 0 <= i < |saves| && i !in fails :: saves[i].id
  }

  /** The accepted ids of a sequence of saves, split at its last save. */
  lemma AcceptedSnoc(saves: seq<Save>, fails: set<nat>)
    requires |saves| > 0
    ensures var n := |saves| - 1;
            AcceptedIds(saves, fails)
              == AcceptedIds(saves[..n], fails) + (if n in fails then {} else {saves[n].id})
  {
    var n := |saves| - 1;
    forall id | id in AcceptedIds(saves, fails)
      ensures id in AcceptedIds(saves[..n], fails) + (if n in fails then {} else {saves[n].id})
    {
      var i :| 0 <= i < |saves| && i !in fails && id == saves[i].id;
      if i < n {
        assert saves[..n][i] == saves[i];
      }
    }
    forall id | id in AcceptedIds(saves[..n], fails)
      ensures id in AcceptedIds(saves, fails)
    {
      var i :| 0 <= i < n && i !in fails && id == saves[..n][i].id;
      assert saves[..n][i] == saves[i];
    }
  }

  /**
   * The store after the saves that did not fail, applied in order. Only accepted saves
   * add ids, and a record no accepted save names keeps its value: a rejected save
   * changes nothing.
   */
  function ApplySaves(db: Store, saves: seq<Save>, fails: set<nat>): (s: Store)
    ensures db.Keys <= s.Keys <= db.Keys + AcceptedIds(saves, fails)
    ensures forall id :: id in db && id !in AcceptedIds(saves, fails) ==> s[id] == db[id]
    decreases |saves|
  {
    if |saves| == 0 then
      db
    else
      var n := |saves| - 1;
      AcceptedSnoc(saves, fails);
      var before := ApplySaves(db, saves[..n], fails);
      if n in fails then before else before[saves[n].id := saves[n].fields]
  }

  /** A save that is accepted and not overwritten by a later accepted save to the same id lands. */
  lemma {:induction false} ApplySavesLands(db: Store, saves: seq<Save>, fails: set<nat>, k: nat)
    requires Lands(saves, fails, k)
    ensures saves[k].id in ApplySaves(db, saves, fails)
    ensures ApplySaves(db, saves, fails)[saves[k].id] == saves[k].fields
    decreases |saves|
  {
    var n := |saves| - 1;
    if k < n {
      var pre := saves[..n];
      assert pre[k] == saves[k];
      forall j | k < j < n && j !in fails ensures pre[j].id != pre[k].id {
        assert pre[j] == saves[j];
      }
      ApplySavesLands(db, pre, fails, k);
    }
  }

  /**
   * One reconciliation pass over the store `db`. `listingFails` is a failure of the
   * initial list-all; `saveFails` holds the positions of saves the store rejects and
   * `deleteFails` the ids whose delete it rejects.
   */
  function Reconcile(db: Store, listingFails: bool, turns: seq<Turn>, schema: set<string>,
                     saveFails: set<nat>, deleteFails: set<string>): (r: Report)
    requires Scripted(turns)
    ensures listingFails ==> r == Report([], [], {}, db)
    ensures !listingFails ==> r.deletes == (db.Keys - {""}) - SeenIds(FetchAll(turns))
  {
    if listingFails then
      Report([], [], {}, db)
    else
      var vs := FetchAll(turns);
      var w := VisitAll(Start(db), vs, schema);
      VisitAllSeen(Start(db), vs, schema);
      var deletes := w.records.Keys - w.seen;
      var saved := ApplySaves(db, w.saves, saveFails);
      Report(w.traces, w.saves, deletes, saved - (deletes - deleteFails))
  }
}

=== FILE: reconcile_proofs.dfy ===
/**
 * Properties of a whole reconciliation pass: what it traces, what it saves and deletes,
 * where it leaves the store, and that a second pass over unchanged data is silent.
 */
module ReconcilerProofs {
  import opened Wrappers
  import opened Values
  import opened Records
  import opened Profiles
  import opened Fetch
  import opened Reconciler

  /** The profile of a usable visit. */
  function ProfileOf(v: Visit): Profile {
    v.fetch.last.profile
  }

  /** Roster entries that resolve to the same character id carry the same profile. */
  ghost predicate Consistent(vs: seq<Visit>) {
    forall i, j ::
      (0 <= i < |vs| && 0 <= j < |vs| && vs[i].fetch.Usable() && vs[j].fetch.Usable()
       && ProfileOf(vs[i]).id == ProfileOf(vs[j]).id) ==> ProfileOf(vs[i]) == ProfileOf(vs[j])
  }

  /** The stored copy of every in-memory record is that record. */
  ghost predicate Mirrors(w: Walk, st: Store) {
    forall id :: id in w.records ==> id in st && st[id] == w.records[id]
  }

  /** Each of the first `n` usable entries has a stored record matching its candidate fields. */
  ghost predicate Settled(vs: seq<Visit>, n: nat, st: Store)
    requires n <= |vs|
  {
    forall i :: 0 <= i < n && vs[i].fetch.Usable() ==>
      RecordId(ProfileOf(vs[i])) in st && SameNormalized(st[RecordId(ProfileOf(vs[i]))], CandidateFields(ProfileOf(vs[i])))
  }

  lemma ApplySavesSnoc(db: Store, saves: seq<Save>, s: Save)
    ensures ApplySaves(db, saves + [s], {}) == ApplySaves(db, saves, {})[s.id := s.fields]
  {
    assert (saves + [s])[..|saves|] == saves;
  }

  /** A record written by the pass matches the candidate it was written from. */
  lemma WrittenRecordSettles(base: Fields, schema: set<string>, p: Profile)
    requires CharacterFieldNames <= schema
    ensures SameNormalized(SetRecordFields(base, schema, CandidateFields(p)), CandidateFields(p))
  {
    CandidateFieldsKnown(p);
    SetRecordFieldsSettles(base, schema, CandidateFields(p));
  }

  /** Writing a settled record for entry `n` settles the first `n + 1` entries. */
  lemma SettledAfterWrite(vs: seq<Visit>, n: nat, st: Store, rec: Fields)
    requires n < |vs| && Consistent(vs) && vs[n].fetch.Usable()
    requires Settled(vs, n, st)
    requires SameNormalized(rec, CandidateFields(ProfileOf(vs[n])))
    ensures Settled(vs, n + 1, st[RecordId(ProfileOf(vs[n])) := rec])
  {
    var p := ProfileOf(vs[n]);
    forall i | 0 <= i < n + 1 && vs[i].fetch.Usable()
      ensures RecordId(ProfileOf(vs[i])) in st[RecordId(p) := rec]
      ensures SameNormalized(st[RecordId(p) := rec][RecordId(ProfileOf(vs[i]))], CandidateFields(ProfileOf(vs[i])))
    {
      RecordIdInjective(ProfileOf(vs[i]), p);
    }
  }

  /** An entry that is skipped, or whose stored record already matches, keeps the store settled. */
  lemma SettledWithoutWrite(vs: seq<Visit>, n: nat, st: Store)
    requires n < |vs| && Settled(vs, n, st)
    requires vs[n].fetch.Usable() ==>
               RecordId(ProfileOf(vs[n])) in st
               && SameNormalized(st[RecordId(ProfileOf(vs[n]))], CandidateFields(ProfileOf(vs[n])))
    ensures Settled(vs, n + 1, st)
  {
  }

  /** Saving a record that memory also holds (or that memory does not track) keeps the mirror. */
  lemma MirrorsAfterWrite(w: Walk, records: Store, st: Store, id: string, rec: Fields)
    requires Mirrors(w, st)
    requires records == w.records[id := rec] || (id !in w.records && records == w.records)
    ensures Mirrors(w.(records := records), st[id := rec])
  {
  }

  /** A usable entry's id is stored once the entry is processed; memory and store stay mirrored. */
  lemma VisitMirrors(db: Store, w: Walk, v: Visit, schema: set<string>)
    requires Mirrors(w, ApplySaves(db, w.saves, {}))
    ensures var r := VisitMember(w, v, schema);
            var st, st' := ApplySaves(db, w.saves, {}), ApplySaves(db, r.saves, {});
            && Mirrors(r, st')
            && st.Keys <= st'.Keys
            && (v.fetch.Usable() ==> RecordId(ProfileOf(v)) in st')
  {
    var r := VisitMember(w, v, schema);
    var st := ApplySaves(db, w.saves, {});
    VisitMemberWrites(w, v, schema);
    if r.saves == w.saves {
      assert r.records == w.records;
    } else {
      var p := ProfileOf(v);
      var id := RecordId(p);
      var base := if id in w.records then w.records[id] else map[];
      var rec := SetRecordFields(base, schema, CandidateFields(p));
      ApplySavesSnoc(db, w.saves, if id in w.records then Update(id, rec) else Create(id, rec));
      MirrorsAfterWrite(w, r.records, st, id, rec);
      assert r == w.(records := r.records, seen := r.seen, saves := r.saves, traces := r.traces);
    }
  }

  /** After the first `n` entries of any pass, every usable entry's id is stored. */
  lemma {:induction false} PassMirrors(db: Store, vs: seq<Visit>, n: nat, schema: set<string>)
    requires n <= |vs|
    ensures var w := VisitAll(Start(db), vs[..n], schema);
            var st := ApplySaves(db, w.saves, {});
            && Mirrors(w, st)
            && forall i :: 0 <= i < n && vs[i].fetch.Usable() ==> RecordId(ProfileOf(vs[i])) in st
  {
    if n > 0 {
      PassMirrors(db, vs, n - 1, schema);
      assert vs[..n][..n - 1] == vs[..n - 1];
      var w := VisitAll(Start(db), vs[..n - 1], schema);
      var r := VisitMember(w, vs[n - 1], schema);
      assert VisitAll(Start(db), vs[..n], schema) == r;
      VisitMirrors(db, w, vs[n - 1], schema);
      var st, st' := ApplySaves(db, w.saves, {}), ApplySaves(db, r.saves, {});
      forall i | 0 <= i < n && vs[i].fetch.Usable() ensures RecordId(ProfileOf(vs[i])) in st' {
        if i < n - 1 {
          assert RecordId(ProfileOf(vs[i])) in st;
        }
      }
    }
  }

  /** One roster entry of a consistent pass settles that entry's record and keeps the others settled. */
  lemma VisitSettles(db: Store, vs: seq<Visit>, n: nat, w: Walk, schema: set<string>)
    requires n < |vs| && Consistent(vs) && CharacterFieldNames <= schema
    requires Mirrors(w, ApplySaves(db, w.saves, {}))
    requires Settled(vs, n, ApplySaves(db, w.saves, {}))
    ensures var r := VisitMember(w, vs[n], schema);
            Settled(vs, n + 1, ApplySaves(db, r.saves, {}))
  {
    var v := vs[n];
    var r := VisitMember(w, v, schema);
    var st := ApplySaves(db, w.saves, {});
    VisitMemberWrites(w, v, schema);
    if r.saves == w.saves {
      SettledWithoutWrite(vs, n, st);
    } else {
      var p := ProfileOf(v);
      var id := RecordId(p);
      var base := if id in w.records then w.records[id] else map[];
      var rec := SetRecordFields(base, schema, CandidateFields(p));
      ApplySavesSnoc(db, w.saves, if id in w.records then Update(id, rec) else Create(id, rec));
      WrittenRecordSettles(base, schema, p);
      SettledAfterWrite(vs, n, st, rec);
    }
  }

  /** After the first `n` entries of a consistent failure-free pass, their records are settled. */
  lemma {:induction false} PassSettles(db: Store, vs: seq<Visit>, n: nat, schema: set<string>)
    requires n <= |vs| && Consistent(vs) && CharacterFieldNames <= schema
    ensures var w := VisitAll(Start(db), vs[..n], schema);
            Settled(vs, n, ApplySaves(db, w.saves, {}))
  {
    if n > 0 {
      PassSettles(db, vs, n - 1, schema);
      PassMirrors(db, vs, n - 1, schema);
      assert vs[..n][..n - 1] == vs[..n - 1];
      VisitSettles(db, vs, n - 1, VisitAll(Start(db), vs[..n - 1], schema), schema);
    }
  }

  /** Every save of a pass names an id the pass has seen. */
  lemma SavesOnlySeen(db: Store, vs: seq<Visit>, schema: set<string>)
    ensures SavedIds(VisitAll(Start(db), vs, schema).saves) <= SeenIds(vs)
  {
    var w := VisitAll(Start(db), vs, schema);
    VisitAllSaves(Start(db), vs, schema);
    forall i | 0 <= i < |w.saves| ensures w.saves[i].id in SeenIds(vs) {
      assert |Start(db).saves| <= i;
    }
  }

  /** The stored records of a failure-free pass before its sweep: the old ones plus every seen id. */
  lemma SavedStoreKeys(db: Store, vs: seq<Visit>, schema: set<string>)
    ensures var w := VisitAll(Start(db), vs, schema);
            ApplySaves(db, w.saves, {}).Keys == db.Keys + SeenIds(vs)
            && SavedIds(w.saves) <= SeenIds(vs)
  {
    var w := VisitAll(Start(db), vs, schema);
    var st := ApplySaves(db, w.saves, {});
    SavesOnlySeen(db, vs, schema);
    PassMirrors(db, vs, |vs|, schema);
    assert vs[..|vs|] == vs;
    forall id | id in SeenIds(vs) ensures id in st {
      var i :| 0 <= i < |vs| && vs[i].fetch.Usable() && id == RecordId(vs[i].fetch.last.profile);
      assert id == RecordId(ProfileOf(vs[i]));
    }
  }

  /**
   * Convergence of a failure-free pass: afterwards the store holds exactly the ids of
   * the members fetched successfully, plus an id-less record if there was one, which
   * is left as it was. Every other stored record, including that of a member whose
   * fetch failed, is gone.
   */
  lemma Converges(db: Store, turns: seq<Turn>, schema: set<string>)
    requires Scripted(turns)
    ensures var r := Reconcile(db, false, turns, schema, {}, {});
            && r.store.Keys == SeenIds(FetchAll(turns)) + (db.Keys * {""})
            && ("" in db ==> r.store[""] == db[""])
  {
    var vs := FetchAll(turns);
    var w := VisitAll(Start(db), vs, schema);
    SavedStoreKeys(db, vs, schema);
    VisitAllSeen(Start(db), vs, schema);
    forall i | 0 <= i < |vs| && vs[i].fetch.Usable() ensures RecordId(vs[i].fetch.last.profile) != "" { }
    assert "" !in SeenIds(vs);
  }

  /**
   * With consistent profiles and a schema that knows every candidate field, a
   * failure-free pass leaves each fetched member's record matching its profile.
   */
  lemma ConvergesToProfiles(db: Store, turns: seq<Turn>, schema: set<string>)
    requires Scripted(turns)
    requires Consistent(FetchAll(turns)) && CharacterFieldNames <= schema
    ensures var r := Reconcile(db, false, turns, schema, {}, {});
            var vs := FetchAll(turns);
            forall i :: 0 <= i < |vs| && vs[i].fetch.Usable() ==>
              RecordId(ProfileOf(vs[i])) in r.store
              && SameNormalized(r.store[RecordId(ProfileOf(vs[i]))], CandidateFields(ProfileOf(vs[i])))
  {
    var vs := FetchAll(turns);
    PassSettles(db, vs, |vs|, schema);
    assert vs[..|vs|] == vs;
    VisitAllSeen(Start(db), vs, schema);
    forall i | 0 <= i < |vs| && vs[i].fetch.Usable() ensures RecordId(ProfileOf(vs[i])) in SeenIds(vs) {
      assert RecordId(ProfileOf(vs[i])) == RecordId(vs[i].fetch.last.profile);
    }
  }

  /** A walk over entries whose records all already match issues no save and changes nothing. */
  lemma {:induction false} QuietWalk(db: Store, vs: seq<Visit>, n: nat, schema: set<string>)
    requires n <= |vs|
    requires forall i :: 0 <= i < |vs| && vs[i].fetch.Usable() ==>
               RecordId(ProfileOf(vs[i])) in Existing(db)
               && SameNormalized(Existing(db)[RecordId(ProfileOf(vs[i]))], CandidateFields(ProfileOf(vs[i])))
    ensures VisitAll(Start(db), vs[..n], schema).saves == []
    ensures VisitAll(Start(db), vs[..n], schema).records == Existing(db)
  {
    if n > 0 {
      QuietWalk(db, vs, n - 1, schema);
      assert vs[..n][..n - 1] == vs[..n - 1];
      var w := VisitAll(Start(db), vs[..n - 1], schema);
      assert VisitAll(Start(db), vs[..n], schema) == VisitMember(w, vs[n - 1], schema);
      QuietVisit(w, vs[n - 1], schema);
    }
  }

  /** An entry whose record is already in memory and matching changes nothing. */
  lemma QuietVisit(w: Walk, v: Visit, schema: set<string>)
    requires v.fetch.Usable() ==>
               RecordId(ProfileOf(v)) in w.records
               && SameNormalized(w.records[RecordId(ProfileOf(v))], CandidateFields(ProfileOf(v)))
    ensures VisitMember(w, v, schema).saves == w.saves
    ensures VisitMember(w, v, schema).records == w.records
  {
    VisitMemberWrites(w, v, schema);
  }

  /** What a second pass reads back: every fetched member's record, already matching. */
  lemma SecondPassFindsSettled(db: Store, turns: seq<Turn>, schema: set<string>, db2: Store)
    requires Scripted(turns)
    requires Consistent(FetchAll(turns)) && CharacterFieldNames <= schema
    requires StoreEquivalent(db2, Reconcile(db, false, turns, schema, {}, {}).store)
    ensures var vs := FetchAll(turns);
            forall i :: 0 <= i < |vs| && vs[i].fetch.Usable() ==>
              RecordId(ProfileOf(vs[i])) in Existing(db2)
              && SameNormalized(Existing(db2)[RecordId(ProfileOf(vs[i]))], CandidateFields(ProfileOf(vs[i])))
  {
    var vs := FetchAll(turns);
    var first := Reconcile(db, false, turns, schema, {}, {});
    ConvergesToProfiles(db, turns, schema);
    forall i | 0 <= i < |vs| && vs[i].fetch.Usable()
      ensures RecordId(ProfileOf(vs[i])) in Existing(db2)
      ensures SameNormalized(Existing(db2)[RecordId(ProfileOf(vs[i]))], CandidateFields(ProfileOf(vs[i])))
    {
      var id := RecordId(ProfileOf(vs[i]));
      SameNormalizedRespectsEquivalence(db2[id], first.store[id], CandidateFields(ProfileOf(vs[i])));
    }
  }

  /** No fetched member yields the empty id. */
  lemma NoEmptySeenId(vs: seq<Visit>)
    ensures "" !in SeenIds(vs)
  {
    forall i | 0 <= i < |vs| && vs[i].fetch.Usable() ensures RecordId(vs[i].fetch.last.profile) != "" { }
  }

  /** A second pass lists exactly the ids the first pass fetched. */
  lemma SecondListingIsSeen(db: Store, turns: seq<Turn>, schema: set<string>, db2: Store)
    requires Scripted(turns)
    requires StoreEquivalent(db2, Reconcile(db, false, turns, schema, {}, {}).store)
    ensures Existing(db2).Keys == SeenIds(FetchAll(turns))
  {
    var first := Reconcile(db, false, turns, schema, {}, {});
    Converges(db, turns, schema);
    NoEmptySeenId(FetchAll(turns));
    assert db2.Keys == first.store.Keys;
  }

  /** The walk of a second pass: nothing to write, and every listed record was seen. */
  lemma SecondWalkIsQuiet(db: Store, turns: seq<Turn>, schema: set<string>, db2: Store)
    requires Scripted(turns)
    requires Consistent(FetchAll(turns)) && CharacterFieldNames <= schema
    requires StoreEquivalent(db2, Reconcile(db, false, turns, schema, {}, {}).store)
    ensures var w2 := VisitAll(Start(db2), FetchAll(turns), schema);
            w2.saves == [] && w2.records.Keys - w2.seen == {}
  {
    var vs := FetchAll(turns);
    SecondPassFindsSettled(db, turns, schema, db2);
    SecondListingIsSeen(db, turns, schema, db2);
    var w2 := VisitAll(Start(db2), vs, schema);
    QuietWalk(db2, vs, |vs|, schema);
    assert vs[..|vs|] == vs;
    VisitAllSeen(Start(db2), vs, schema);
  }

  /** A walk with nothing to write and nothing left unseen makes a pass that changes nothing. */
  lemma QuietWalkQuietPass(db2: Store, listingFails2: bool, turns: seq<Turn>, schema: set<string>,
                           saveFails2: set<nat>, deleteFails2: set<string>)
    requires Scripted(turns)
    requires var w2 := VisitAll(Start(db2), FetchAll(turns), schema);
             w2.saves == [] && w2.records.Keys - w2.seen == {}
    ensures var second := Reconcile(db2, listingFails2, turns, schema, saveFails2, deleteFails2);
            second.saves == [] && second.deletes == {} && second.store == db2
  {
  }

  /**
   * Idempotence: after a failure-free pass, a second pass over the same roster and
   * answers issues no save and no delete and leaves the store as it found it. The
   * second pass may read the store back in any normal-form-equivalent shape (an int
   * written may come back as an integral float) and may itself meet any failures.
   */
  lemma SecondPassIsQuiet(db: Store, turns: seq<Turn>, schema: set<string>,
                          db2: Store, listingFails2: bool, saveFails2: set<nat>, deleteFails2: set<string>)
    requires Scripted(turns)
    requires Consistent(FetchAll(turns)) && CharacterFieldNames <= schema
    requires StoreEquivalent(db2, Reconcile(db, false, turns, schema, {}, {}).store)
    ensures var second := Reconcile(db2, listingFails2, turns, schema, saveFails2, deleteFails2);
            second.saves == [] && second.deletes == {} && second.store == db2
  {
    SecondWalkIsQuiet(db, turns, schema, db2);
    QuietWalkQuietPass(db2, listingFails2, turns, schema, saveFails2, deleteFails2);
  }

  /** A record that matches one candidate does not match a candidate that differs from it. */
  lemma MatchesOnlyOne(rec: Fields, p: Profile, q: Profile)
    requires SameNormalized(rec, CandidateFields(q))
    requires !SameNormalized(CandidateFields(p), CandidateFields(q))
    ensures !SameNormalized(rec, CandidateFields(p))
  {
    var name :| name in CandidateFields(q)
                && Normalize(Get(CandidateFields(p), name)) != Normalize(CandidateFields(q)[name]);
    CandidateFieldsKnown(p);
    CandidateFieldsKnown(q);
    assert Normalize(Get(rec, name)) != Normalize(CandidateFields(p)[name]);
  }

  /**
   * An entry whose profile `p` differs from the profile `q` its stored record matches
   * updates that record, which then matches `p`.
   */
  lemma OverwritingVisit(w: Walk, v: Visit, schema: set<string>, p: Profile, q: Profile)
    requires v.fetch.Outcome() == Some(p) && p.id == q.id
    requires !SameNormalized(CandidateFields(p), CandidateFields(q))
    requires CharacterFieldNames <= schema
    requires RecordId(q) in w.records && SameNormalized(w.records[RecordId(q)], CandidateFields(q))
    ensures var r := VisitMember(w, v, schema);
            && |r.saves| == |w.saves| + 1 && r.saves[..|w.saves|] == w.saves
            && r.saves[|w.saves|].Update? && r.saves[|w.saves|].id == RecordId(q)
            && RecordId(q) in r.records && r.records[RecordId(q)] == r.saves[|w.saves|].fields
            && SameNormalized(r.records[RecordId(q)], CandidateFields(p))
  {
    var id := RecordId(q);
    RecordIdInjective(p, q);
    MatchesOnlyOne(w.records[id], p, q);
    VisitMemberWrites(w, v, schema);
    WrittenRecordSettles(w.records[id], schema, p);
  }

  /** A roster of two entries is walked as the first entry, then the second. */
  lemma WalkOfTwo(w: Walk, vs: seq<Visit>, schema: set<string>)
    requires |vs| == 2
    ensures VisitAll(w, vs, schema) == VisitMember(VisitMember(w, vs[0], schema), vs[1], schema)
  {
    assert vs[..1][..0] == [] && vs[..1][0] == vs[0];
    assert VisitAll(w, vs[..1], schema) == VisitMember(w, vs[0], schema);
  }

  /**
   * Why `SecondPassIsQuiet` needs consistent profiles: two roster entries that fetch
   * the same character with profiles that differ in normal form overwrite each other.
   * Starting from a store whose record matches the later entry's profile, the pass
   * issues two updates and leaves a record that again matches the later profile, so
   * every following failure-free pass over the same answers issues both updates again.
   */
  lemma ConflictingDuplicatesResave(db: Store, turns: seq<Turn>, schema: set<string>, p: Profile, q: Profile)
    requires Scripted(turns) && |turns| == 2
    requires FetchProfile(turns[0].answers).Outcome() == Some(p)
    requires FetchProfile(turns[1].answers).Outcome() == Some(q)
    requires p.id == q.id && !SameNormalized(CandidateFields(p), CandidateFields(q))
    requires CharacterFieldNames <= schema
    requires RecordId(q) in db && SameNormalized(db[RecordId(q)], CandidateFields(q))
    ensures var r := Reconcile(db, false, turns, schema, {}, {});
            && |r.saves| == 2 && r.saves[0].Update? && r.saves[1].Update?
            && r.saves[0].id == r.saves[1].id == RecordId(q)
            && RecordId(q) in r.store && SameNormalized(r.store[RecordId(q)], CandidateFields(q))
  {
    var vs := FetchAll(turns);
    var id := RecordId(q);
    var w0 := Start(db);
    WalkOfTwo(w0, vs, schema);
    var w1 := VisitMember(w0, vs[0], schema);
    OverwritingVisit(w0, vs[0], schema, p, q);
    assert SameNormalized(w1.records[id], CandidateFields(p));
    OverwritingVisit(w1, vs[1], schema, q, p);
    var w2 := VisitMember(w1, vs[1], schema);
    assert w2.saves[1].fields == w2.records[id];
    ApplySavesLands(db, w2.saves, {}, 1);
    assert id in SeenIds(vs) by {
      assert vs[1].fetch.Usable() && RecordId(vs[1].fetch.last.profile) == id;
    }
  }
}

=== FILE: records.dfy ===
/**
 * Stored character records as flat field maps, the field-by-field comparison that
 * decides whether a record needs saving, and `setRecordFields` (main.go).
 */
module Records {
  import opened Values

  /** One record's fields by name. */
  type Fields = map<string, Value>

  /** The "characters" collection: records keyed by their id. */
  type Store = map<string, Fields>

  /** `record.Get(name)`: an unset field reads as nil. */
  function Get(rec: Fields, name: string): Value {
    if name in rec then rec[name] else Nil
  }

  /** Every candidate field already holds a value with the same normal form. */
  predicate SameNormalized(rec: Fields, cand: Fields) {
    forall name :: name in cand ==> Normalize(Get(rec, name)) == Normalize(cand[name])
  }

  /** Two records agree on the normal form of every field. */
  ghost predicate NormEquivalent(a: Fields, b: Fields) {
    forall name :: Normalize(Get(a, name)) == Normalize(Get(b, name))
  }

  /** Two stores hold the same ids, with normal-form-equivalent records. */
  ghost predicate StoreEquivalent(a: Store, b: Store) {
    a.Keys == b.Keys && forall id :: id in a ==> NormEquivalent(a[id], b[id])
  }

  /**
   * The comparison loop of the reconciler: visit the candidate fields in any order and
   * stop at the first whose normal form differs from the stored one.
   */
  method DiffFields(rec: Fields, cand: Fields) returns (same: bool)
    ensures same <==> SameNormalized(rec, cand)
  {
    var pending := cand.Keys;
    while pending != {}
      invariant pending <= cand.Keys
      invariant forall name :: name in cand && name !in pending ==> Normalize(Get(rec, name)) == Normalize(cand[name])
      decreases |pending|
    {
      var name :| name in pending;
      if Normalize(Get(rec, name)) != Normalize(cand[name]) {
        return false;
      }
      pending := pending - {name};
    }
    return true;
  }

  /**
   * `setRecordFields`: copy into `rec` every value whose name the collection schema
   * knows; names the schema does not know are dropped, other fields stay as they were.
   */
  function SetRecordFields(rec: Fields, schema: set<string>, values: Fields): (r: Fields)
    ensures r.Keys == rec.Keys + (values.Keys * schema)
    ensures forall name :: name in values && name in schema ==> r[name] == values[name]
    ensures forall name :: name in rec && (name !in values || name !in schema) ==> r[name] == rec[name]
  {
    map name | name in rec.Keys + (values.Keys * schema) ::
      if name in values && name in schema then values[name] else rec[name]
  }

  /** Once written, a record whose every candidate field is in the schema compares as unchanged. */
  lemma SetRecordFieldsSettles(rec: Fields, schema: set<string>, values: Fields)
    requires values.Keys <= schema
    ensures SameNormalized(SetRecordFields(rec, schema, values), values)
  {
  }

  /** Writing the same values twice leaves the record as the first write did. */
  lemma SetRecordFieldsIdempotent(rec: Fields, schema: set<string>, values: Fields)
    ensures var once := SetRecordFields(rec, schema, values);
            SetRecordFields(once, schema, values) == once
  {
  }

  /**
   * A candidate field the schema does not know is never written, so if it differs
   * from the stored value it keeps differing after every save.
   */
  lemma UnknownFieldKeepsDiffering(rec: Fields, schema: set<string>, values: Fields, name: string)
    requires name in values && name !in schema
    requires Normalize(Get(rec, name)) != Normalize(values[name])
    ensures !SameNormalized(SetRecordFields(rec, schema, values), values)
  {
    assert Get(SetRecordFields(rec, schema, values), name) == Get(rec, name);
  }

  /** The comparison looks only at normal forms, so an equivalent record compares alike. */
  lemma SameNormalizedRespectsEquivalence(a: Fields, b: Fields, cand: Fields)
    requires NormEquivalent(a, b)
    ensures SameNormalized(a, cand) <==> SameNormalized(b, cand)
  {
  }
}

=== FILE: registry.dfy ===
/**
 * How the self-updater reads the two digests it compares (selfupdate.go): the
 * registry's digest for the `latest` tag and the digest of the locally pulled image.
 * Each HTTP exchange is an input reply; transport and decoding are left out.
 */
module Registry {
  import opened Wrappers

  const Image: string := "ghcr.io/jrsmile/blizbase"

  /** A repo digest of the watched image starts with this. */
  const DigestPrefix: string := Image + "@"

  const StatusOK: int := 200
  const StatusNoContent: int := 204
  const StatusNotFound: int := 404

  /** Reply to the anonymous token request: `decoded` is false when the body is not a token object. */
  datatype TokenReply = TokenUnreachable | TokenReply(status: int, decoded: bool)

  /** Reply to the manifest HEAD request, with its `Docker-Content-Digest` header ("" when absent). */
  datatype ManifestReply = ManifestUnreachable | ManifestReply(status: int, digestHeader: string)

  /** Reply to the local image inspect: `RepoDigests`, or None when the body does not decode. */
  datatype InspectReply = InspectUnreachable | InspectReply(status: int, repoDigests: Option<seq<string>>)

  /** `getGHCRToken` yields a token. */
  predicate TokenGranted(t: TokenReply) {
    t.TokenReply? && t.status == StatusOK && t.decoded
  }

  /**
   * `getRemoteDigest`: the registry's digest of the `latest` tag, or an error when
   * no token was granted, the manifest request failed or answered other than 200,
   * or the digest header is missing. A digest it returns is never empty.
   */
  function RemoteDigest(t: TokenReply, m: ManifestReply): (r: Result<string>)
    ensures r.Ok? <==> TokenGranted(t) && m.ManifestReply? && m.status == StatusOK && m.digestHeader != ""
    ensures r.Ok? ==> r.value != "" && r.value == m.digestHeader
  {
    if !TokenGranted(t) then Err
    else if m.ManifestUnreachable? then Err
    else if m.status != StatusOK then Err
    else if m.digestHeader == "" then Err
    else Ok(m.digestHeader)
  }

  /**
   * The digest of the first entry that names the watched image, with the prefix
   * cut off; None when no entry names it.
   */
  function PickDigest(ds: seq<string>): (r: Option<string>)
    ensures r.None? <==> forall i :: 0 <= i < |ds| ==> !(DigestPrefix <= ds[i])
    ensures r.Some? ==> exists i :: 0 <= i < |ds| && ds[i] == DigestPrefix + r.value
                                   && forall j :: 0 <= j < i ==> !(DigestPrefix <= ds[j])
  {
    if |ds| == 0 then None
    else if DigestPrefix <= ds[0] then
      var d := ds[0][|DigestPrefix|..];
      assert ds[0] == DigestPrefix + d;
      Some(d)
    else
      var r := PickDigest(ds[1..]);
      assert forall i :: 1 <= i < |ds| ==> ds[i] == ds[1..][i - 1];
      if r.Some? then
        var k :| 0 <= k < |ds[1..]| && ds[1..][k] == DigestPrefix + r.value
                 && forall j :: 0 <= j < k ==> !(DigestPrefix <= ds[1..][j]);
        assert ds[k + 1] == DigestPrefix + r.value;
        r
      else
        r
  }

  /**
   * `getLocalDigest`: "" when the image is not present (404), an error on any other
   * status but 200 or an undecodable body, else the digest picked from `RepoDigests`,
   * or "" when no entry names the image.
   */
  function LocalDigest(m: InspectReply): (r: Result<string>)
    ensures m.InspectReply? && m.status == StatusNotFound ==> r == Ok("")
    ensures r.Err? <==> m.InspectUnreachable?
                        || (m.status != StatusNotFound && m.status != StatusOK)
                        || (m.status == StatusOK && m.repoDigests.None?)
  {
    if m.InspectUnreachable? then Err
    else if m.status == StatusNotFound then Ok("")
    else if m.status != StatusOK then Err
    else if m.repoDigests.None? then Err
    else
      match PickDigest(m.repoDigests.value)
      case Some(d) => Ok(d)
      case None => Ok("")
  }

  /**
   * A non-empty local digest is the tail of the first `RepoDigests` entry naming the
   * image: prefix plus digest gives back that entry.
   */
  lemma LocalDigestNamesFirstMatch(m: InspectReply)
    requires LocalDigest(m).Ok? && LocalDigest(m).value != ""
    ensures m.InspectReply? && m.status == StatusOK && m.repoDigests.Some?
    ensures var ds := m.repoDigests.value;
            exists i :: 0 <= i < |ds| && ds[i] == DigestPrefix + LocalDigest(m).value
                        && forall j :: 0 <= j < i ==> !(DigestPrefix <= ds[j])
  {
  }

  /** The index of the first entry naming the image. */
  function FirstMatch(ds: seq<string>): (k: nat)
    requires exists i :: 0 <= i < |ds| && DigestPrefix <= ds[i]
    ensures k < |ds| && DigestPrefix <= ds[k]
    ensures forall j :: 0 <= j < k ==> !(DigestPrefix <= ds[j])
  {
    if DigestPrefix <= ds[0] then 0
    else
      assert exists i :: 0 <= i < |ds[1..]| && DigestPrefix <= ds[1..][i] by {
        var i :| 0 <= i < |ds| && DigestPrefix <= ds[i];
        assert ds[1..][i - 1] == ds[i];
      }
      1 + FirstMatch(ds[1..])
  }

  /**
   * With a readable inspect reply, the local digest is "" exactly when no entry names
   * the image or the first one that does stops right after the prefix.
   */
  lemma LocalDigestEmpty(m: InspectReply)
    requires m.InspectReply? && m.status == StatusOK && m.repoDigests.Some?
    ensures var ds := m.repoDigests.value;
            LocalDigest(m) == Ok("") <==>
              (forall i :: 0 <= i < |ds| ==> !(DigestPrefix <= ds[i])) || ds[FirstMatch(ds)] == DigestPrefix
  {
    var ds := m.repoDigests.value;
    var r := PickDigest(ds);
    if r.Some? {
      var i :| 0 <= i < |ds| && ds[i] == DigestPrefix + r.value
               && forall j :: 0 <= j < i ==> !(DigestPrefix <= ds[j]);
      assert DigestPrefix <= ds[i];
      var k := FirstMatch(ds);
      assert k == i by {
        assert !(k < i) && !(i < k);
      }
      assert r.value == "" <==> ds[i] == DigestPrefix;
    }
  }
}

=== FILE: selfupdate.dfy ===
/**
 * The self-update controller (`watchForUpdates` in selfupdate.go) as a function from
 * the replies its sub-calls get to the calls it issues and how it ends.
 */
module SelfUpdate {
  import opened Wrappers
  import opened Registry
  import opened Engine

  /** A sub-call the controller issues. */
  datatype Call = CheckRemote | CheckLocal | Pull | ListContainers | Restart(id: string)

  /** How a pass ends: by returning, or by exiting the process with status 1. */
  datatype Outcome = Done | Exit1

  datatype Run = Run(calls: seq<Call>, outcome: Outcome)

  /** The replies each sub-call would get if issued. */
  datatype Replies = Replies(
    token: TokenReply,
    manifest: ManifestReply,
    inspect: InspectReply,
    pull: PullReply,
    list: ListReply,
    restart: RestartReply
  )

  /** Position of a call in the controller's fixed sequence. */
  function Stage(c: Call): nat {
    match c
    case CheckRemote => 0
    case CheckLocal => 1
    case Pull => 2
    case ListContainers => 3
    case Restart(_) => 4
  }

  /** Both digests were read and they differ: an update is pending. */
  predicate Outdated(rs: Replies) {
    && RemoteDigest(rs.token, rs.manifest).Ok?
    && LocalDigest(rs.inspect).Ok?
    && LocalDigest(rs.inspect).value != RemoteDigest(rs.token, rs.manifest).value
  }

  /** The controller reached the container listing and it named a container. */
  predicate FoundContainer(rs: Replies) {
    Outdated(rs) && PullSucceeded(rs.pull) && ContainerId(rs.list).Ok? && ContainerId(rs.list).value != ""
  }

  /** The restart log line shows the first 12 characters of the id it restarts. */
  predicate RestartLogFits(rs: Replies) {
    FoundContainer(rs) ==> |ContainerId(rs.list).value| >= 12
  }

  /**
   * One controller pass: read the remote then the local digest, stop if either fails
   * or they agree; else pull, stop if that fails; else find the container, exit 1 if
   * there is none; else restart it, exiting 1 if the restart fails. Every other
   * failure ends the pass normally.
   */
  function WatchForUpdates(rs: Replies): (run: Run)
    requires RestartLogFits(rs)
    ensures 1 <= |run.calls| <= 5
    ensures forall i :: 0 <= i < |run.calls| ==> Stage(run.calls[i]) == i
  {
    match RemoteDigest(rs.token, rs.manifest)
    case Err => Run([CheckRemote], Done)
    case Ok(remote) =>
      match LocalDigest(rs.inspect)
      case Err => Run([CheckRemote, CheckLocal], Done)
      case Ok(local) =>
        if local == remote then
          Run([CheckRemote, CheckLocal], Done)
        else if !PullSucceeded(rs.pull) then
          Run([CheckRemote, CheckLocal, Pull], Done)
        else
          match ContainerId(rs.list)
          case Err => Run([CheckRemote, CheckLocal, Pull, ListContainers], Done)
          case Ok(id) =>
            if id == "" then
              Run([CheckRemote, CheckLocal, Pull, ListContainers], Exit1)
            else
              var shown := id[..12];  // the restart log line shows this much of the id
              var calls := [CheckRemote, CheckLocal, Pull, ListContainers, Restart(id)];
              if RestartSucceeded(rs.restart) then Run(calls, Done) else Run(calls, Exit1)
  }

  /** Equal digests: nothing is pulled, listed or restarted. */
  lemma UpToDateIsNoOp(rs: Replies)
    requires RemoteDigest(rs.token, rs.manifest).Ok? && LocalDigest(rs.inspect).Ok?
    requires LocalDigest(rs.inspect).value == RemoteDigest(rs.token, rs.manifest).value
    ensures WatchForUpdates(rs) == Run([CheckRemote, CheckLocal], Done)
  {
  }

  /** A missing local image, or one without a matching repo digest, is always pulled once the remote digest is known. */
  lemma EmptyLocalDigestPulls(rs: Replies)
    requires RestartLogFits(rs)
    requires RemoteDigest(rs.token, rs.manifest).Ok? && LocalDigest(rs.inspect) == Ok("")
    ensures Pull in WatchForUpdates(rs).calls
  {
    assert Outdated(rs);
  }

  /** A failed sub-call before the restart ends the pass normally with no later call. */
  lemma EarlyErrorsEndQuietly(rs: Replies)
    requires RestartLogFits(rs)
    ensures var run := WatchForUpdates(rs);
            && (RemoteDigest(rs.token, rs.manifest).Err? ==> run == Run([CheckRemote], Done))
            && (RemoteDigest(rs.token, rs.manifest).Ok? && LocalDigest(rs.inspect).Err? ==>
                  run == Run([CheckRemote, CheckLocal], Done))
            && (Outdated(rs) && !PullSucceeded(rs.pull) ==>
                  run == Run([CheckRemote, CheckLocal, Pull], Done))
            && (Outdated(rs) && PullSucceeded(rs.pull) && ContainerId(rs.list).Err? ==>
                  run == Run([CheckRemote, CheckLocal, Pull, ListContainers], Done))
  {
  }

  /**
   * The process exits with status 1 exactly when the new image was pulled and the
   * listing answered, but no container was found or its restart failed.
   */
  lemma ExitsIff(rs: Replies)
    requires RestartLogFits(rs)
    ensures WatchForUpdates(rs).outcome == Exit1 <==>
              Outdated(rs) && PullSucceeded(rs.pull) && ContainerId(rs.list).Ok?
              && (ContainerId(rs.list).value == "" || !RestartSucceeded(rs.restart))
  {
  }

  /** A restart is issued exactly when a container was found, and it targets the listed id. */
  lemma RestartsIff(rs: Replies, id: string)
    requires RestartLogFits(rs)
    ensures Restart(id) in WatchForUpdates(rs).calls <==> FoundContainer(rs) && ContainerId(rs.list).value == id
  {
    var run := WatchForUpdates(rs);
    if Restart(id) in run.calls {
      var i :| 0 <= i < |run.calls| && run.calls[i] == Restart(id);
      assert Stage(run.calls[i]) == 4;
    }
  }

  /** Each sub-call is issued at most once, in the fixed order. */
  lemma CallsInOrder(rs: Replies)
    requires RestartLogFits(rs)
    ensures var calls := WatchForUpdates(rs).calls;
            forall i, j :: 0 <= i < j < |calls| ==> Stage(calls[i]) < Stage(calls[j])
  {
  }
}

=== FILE: values.dfy ===
/**
 * Field values as the reconciler sees them, and `normalizeValue` (main.go), the
 * rule that lets a stored number and a freshly fetched one compare equal whatever
 * Go type each arrived as.
 */
module Values {
  import opened Decimal

  /**
   * A finite floating-point number. An integral one is held as its exact integer
   * value, which `normalizeValue` prints with `FormatInt` when it fits the integer
   * conversion. A fractional one is held as the shortest decimal text that
   * `strconv.FormatFloat(_, 'f', -1, _)` prints for it; which binary float that text
   * stands for is not modelled.
   */
  datatype FloatRep =
    | Integral(n: int)
    | Fraction(negative: bool, whole: nat, digits: seq<Digit>)
  {
    /** One representation per number: a fraction has a non-zero last digit. */
    predicate Canonical() {
      Fraction? ==> |digits| > 0 && digits[|digits| - 1] != 0
    }
  }

  type Float = f: FloatRep | f.Canonical() witness Integral(0)

  /** The dynamic types that reach `normalizeValue` through `any`. */
  datatype Value =
    | Nil
    | Bool(b: bool)
    | Int(i: int)
    | Str(s: string)
    | Float64(f: Float)
    | Float32(f: Float)

  function DigitsText(ds: seq<Digit>): (s: string)
    ensures |s| == |ds|
    ensures forall i :: 0 <= i < |ds| ==> s[i] == DigitChar(ds[i])
  {
    if |ds| == 0 then [] else DigitsText(ds[..|ds| - 1]) + [DigitChar(ds[|ds| - 1])]
  }

  /** Text of a float: integral values as integers, others with a decimal point. */
  function FloatText(f: Float): (s: string)
    ensures |s| >= 1
    ensures ('.' in s) <==> f.Fraction?
  {
    match f
    case Integral(n) => IntText(n)
    case Fraction(neg, w, ds) =>
      var t := (if neg then "-" else "") + NatText(w) + "." + DigitsText(ds);
      assert t[|t| - |DigitsText(ds)| - 1] == '.';
      t
  }

  /** `normalizeValue`: the string a stored or fetched value is compared by. */
  function Normalize(v: Value): (s: string)
    ensures v.Float64? || v.Float32? ==> (('.' in s) <==> v.f.Fraction?)
    ensures v.Int? ==> '.' !in s
  {
    match v
    case Float64(f) => FloatText(f)
    case Float32(f) => FloatText(f)
    case Nil => "<nil>"
    case Bool(b) => if b then "true" else "false"
    case Int(i) => IntText(i)
    case Str(s) => s
  }

  predicate IsNumber(v: Value) {
    v.Int? || v.Float64? || v.Float32?
  }

  /** The number a numeric value stands for, forgetting its Go type. */
  function NumberOf(v: Value): Float
    requires IsNumber(v)
  {
    match v
    case Int(i) => Integral(i)
    case Float64(f) => f
    case Float32(f) => f
  }

  lemma DigitsTextInjective(a: seq<Digit>, b: seq<Digit>)
    requires DigitsText(a) == DigitsText(b)
    ensures a == b
  {
    forall i | 0 <= i < |a|
      ensures a[i] == b[i]
    {
      DigitCharInjective(a[i], b[i]);
    }
  }

  /** Splitting at the first '.' is unique when the left parts hold no '.'. */
  lemma SplitAtPoint(l1: string, r1: string, l2: string, r2: string)
    requires '.' !in l1 && '.' !in l2
    requires l1 + "." + r1 == l2 + "." + r2
    ensures l1 == l2 && r1 == r2
  {
    var s := l1 + "." + r1;
    assert s[|l1|] == '.' && s[|l2|] == '.';
    assert forall k :: 0 <= k < |l1| ==> s[k] == l1[k] != '.';
    assert forall k :: 0 <= k < |l2| ==> s[k] == l2[k] != '.';
    assert l1 == s[..|l1|] == l2;
    assert r1 == s[|l1| + 1..] == r2;
  }

  lemma NatTextHasNoPointOrSign(n: nat)
    ensures '.' !in NatText(n) && '-' !in NatText(n)
  {
    var s := NatText(n);
    assert forall i :: 0 <= i < |s| ==> s[i] != '.' && s[i] != '-';
  }

  /** An optional minus sign in front of texts that do not start with one can be split off uniquely. */
  lemma SignSplits(n1: bool, t1: string, n2: bool, t2: string)
    requires |t1| > 0 && |t2| > 0 && t1[0] != '-' && t2[0] != '-'
    requires (if n1 then "-" else "") + t1 == (if n2 then "-" else "") + t2
    ensures n1 == n2 && t1 == t2
  {
    var s := (if n1 then "-" else "") + t1;
    assert n1 == (s[0] == '-') == n2;
    assert t1 == s[|if n1 then "-" else ""|..] == t2;
  }

  /** Sign, integer part and fraction digits can be read back from a fraction's text. */
  lemma SignedPointSplits(n1: bool, l1: string, r1: string, n2: bool, l2: string, r2: string)
    requires |l1| > 0 && '.' !in l1 && '-' !in l1
    requires |l2| > 0 && '.' !in l2 && '-' !in l2
    requires (if n1 then "-" else "") + l1 + "." + r1 == (if n2 then "-" else "") + l2 + "." + r2
    ensures n1 == n2 && l1 == l2 && r1 == r2
  {
    var t1, t2 := l1 + "." + r1, l2 + "." + r2;
    assert (if n1 then "-" else "") + l1 + "." + r1 == (if n1 then "-" else "") + t1;
    assert (if n2 then "-" else "") + l2 + "." + r2 == (if n2 then "-" else "") + t2;
    assert t1[0] == l1[0] && t2[0] == l2[0];
    SignSplits(n1, t1, n2, t2);
    SplitAtPoint(l1, r1, l2, r2);
  }

  /** Two fractions that print alike agree in sign, whole part and digits. */
  lemma FractionTextInjective(x: Float, y: Float)
    requires x.Fraction? && y.Fraction? && FloatText(x) == FloatText(y)
    ensures x == y
  {
    NatTextHasNoPointOrSign(x.whole);
    NatTextHasNoPointOrSign(y.whole);
    SignedPointSplits(x.negative, NatText(x.whole), DigitsText(x.digits),
                      y.negative, NatText(y.whole), DigitsText(y.digits));
    NatTextInjective(x.whole, y.whole);
    DigitsTextInjective(x.digits, y.digits);
  }

  /** Distinct model floats print differently. */
  lemma FloatTextInjective(x: Float, y: Float)
    ensures FloatText(x) == FloatText(y) <==> x == y
  {
    if FloatText(x) == FloatText(y) {
      if x.Integral? {
        assert y.Integral?;
        IntTextInjective(x.n, y.n);
      } else {
        assert y.Fraction?;
        FractionTextInjective(x, y);
      }
    }
  }

  /**
   * Numbers compare by model value whatever Go type carries them: an int, a float64
   * and a float32 normalise alike exactly when they carry the same `Float`, that is
   * the same integer or, for fractions, the same printed text.
   */
  lemma NormalizeComparesNumbersByValue(a: Value, b: Value)
    requires IsNumber(a) && IsNumber(b)
    ensures Normalize(a) == Normalize(b) <==> NumberOf(a) == NumberOf(b)
  {
    assert Normalize(a) == FloatText(NumberOf(a));
    assert Normalize(b) == FloatText(NumberOf(b));
    FloatTextInjective(NumberOf(a), NumberOf(b));
  }

  /** 5.0, 5 and "5" all normalise to "5"; 5.5 to "5.5"; 5.0 and 6.0 stay apart. */
  lemma NormalizeExamples()
    ensures Normalize(Float64(Integral(5))) == "5"
    ensures Normalize(Int(5)) == "5" && Normalize(Str("5")) == "5"
    ensures Normalize(Float32(Integral(5))) == "5"
    ensures Normalize(Float64(Fraction(false, 5, [5]))) == "5.5" == Normalize(Str("5.5"))
    ensures Normalize(Float64(Integral(5))) != Normalize(Float64(Integral(6)))
  {
    assert NatText(5) == "5";
    assert DigitsText([5]) == "5";
  }
}

=== FILE: wrappers.dfy ===
/** Failure-carrying results shared by both halves of the model. */
module Wrappers {

  /** A value that may be absent (a Go nil pointer or a missing map entry). */
  datatype Option<+T> = None | Some(value: T)

  /** The `(value, error)` pair that Go functions return: either a value or a failure. */
  datatype Result<+T> = Ok(value: T) | Err
}
